=== FILE: README.md ===
# Aras.ViewModel core, modelled in Dafny

Aras.ViewModel is a view-model layer over the Aras Innovator item model. It has four parts, each modelled here.

**The shared control runtime** (`Control.cs`, module `Controls`, file `control.dfy`). It covers:
- identity by GUID;
- the `Enabled`, `InError` and `ErrorMessage` properties, each of which notifies only when it changes;
- the `Binding` setter and its check → before-hook → assign → after-hook → notify protocol;
- the name-keyed property and command registries that the source builds by reflection;
- the de-duplicated `Controls` snapshot.

The concrete controls hold a `Control` (`const control`) and carry their own versions of the check and the hooks. Every `SetBinding` states its new log as `Controls.BindingCycle` applied to that control's check and hook events.

**The list entry control** (`ListValue.cs`, module `ListValues`, file `list_value.dfy`). Its `Value` and `Label` follow the bound list entry: the before-hook clears them and the after-hook fills them in again.

**The relationship tree** (`RelationshipTree.cs`, module `RelationshipTrees`, file `relationship_tree.dfy`).
- The tree's nodes are an index-based table. A parent always comes before its children, and each child is listed in its parent's ordered child list.
- Around the table sit:
  - the selected node;
  - a transaction that is opened the first time it is needed;
  - a copy/paste buffer;
  - the ShowSearch flag;
  - a cache of nodes keyed by ID;
  - the `CanExecute` flags of the twelve commands.
- Backend work (BeginTransaction, Item.Update, Relationship.Delete, Commit, RollBack, node refreshes) is recorded as a log of calls.
- Notifications go to the control's event log.

**The search-filter dialog** (`Dialogs/Filters.cs`, module `FilterDialogs`, file `filters.dfy`).
- It folds an ordered table of typed filter fields into an `All` / `Eq` / `Like` / `And` condition.
- It clears the fields.
- It computes its own size.

`common.dfy` holds the shared types: `Option`, `Outcome`, `Result`, the backend objects, and facts about sequences (first index, first-seen de-duplication).

## Model

| member | source | states |
|---|---|---|
| Controls.RegistryNames | Aras.ViewModel/Control.cs:218-249 | the property and command caches list each declared name once, in the order first declared |
| Controls.RegistryKeys | Aras.ViewModel/Control.cs:218-241 | a cache holds an entry exactly for the declared names |
| Controls.RegistryLastWins | Aras.ViewModel/Control.cs:218-241 | a name declared twice keeps the entry of its last declaration, because the dictionary is overwritten in place |
| Controls.BuildCache | Aras.ViewModel/Control.cs:218-241 | the cache-filling loop produces exactly the registry of the declarations |
| Controls.CollectControls | Aras.ViewModel/Control.cs:276-311 | the `Controls` loop returns the first-seen de-duplication of all controls held by property values |
| Controls.AddNew | Aras.ViewModel/Control.cs:286-306 | the inner loop over a control sequence extends the de-duplicated list by exactly the new elements |
| Controls.ControlsSnapshot | Aras.ViewModel/Control.cs:276-311 | the snapshot holds each reachable control exactly once, holds nothing else, and keeps first-seen order |
| Controls.SetterActsIffChange | Aras.ViewModel/Control.cs:143-165 | the setter acts exactly when the new value differs from the current binding, null included on either side |
| Controls.BoundAfter | Aras.ViewModel/Control.cs:143-165 | after one assignment the binding is the old or the new value; it stays the old one exactly when the value is unchanged or the check refused it |
| Controls.CycleOrder | Aras.ViewModel/Control.cs:147-151 | a real change runs check, before-hook with the old binding current, after-hook with the new binding current, and the "Binding" notification last, in that order |
| Controls.RebindIsSilent | Aras.ViewModel/Control.cs:154-163 | assigning again the value just bound produces no check, no hook and no notification |
| Controls.EqualityIsByIdentity | Aras.ViewModel/Control.cs:323-357 | control equality is an equivalence on IDs; `Equals(null)` and `Equals` on a non-control are false; equal controls hash alike |
| Controls.Command.constructor | Aras.ViewModel/Control.cs:380-384 | a command starts with the given `CanExecute` |
| Controls.Control.constructor | Aras.ViewModel/Control.cs:359-367 | a new control has the given ID, region Center, no error and no message, no binding, empty caches and a fresh Refresh command and Close command, both enabled |
| Controls.Control.SetEnabled | Aras.ViewModel/Control.cs:63-79 | sets `Enabled` and notifies "Enabled" exactly when the value changes |
| Controls.Control.SetInError | Aras.ViewModel/Control.cs:81-97 | sets `InError` and notifies "InError" exactly when the value changes |
| Controls.Control.SetErrorMessage | Aras.ViewModel/Control.cs:99-115 | sets `ErrorMessage` and notifies "ErrorMessage" exactly when the value changes |
| Controls.Control.ResetError | Aras.ViewModel/Control.cs:117-121 | leaves the error state (false, null), notifying only the parts that changed |
| Controls.Control.OnError | Aras.ViewModel/Control.cs:123-127 | leaves the error state (true, message), notifying only the parts that changed |
| Controls.Control.SetBinding | Aras.ViewModel/Control.cs:134-166 | with the base check, which accepts anything, the binding becomes the value, and the log grows by exactly the protocol's events (none for an unchanged value) |
| Controls.Control.RunBindingCycle | Aras.ViewModel/Control.cs:147-151 | one real change logs check, before-hook, after-hook and notification, and assigns between the two hooks |
| Controls.Control.PropertyInfoCache | Aras.ViewModel/Control.cs:218-241 | the property cache is built on first access as the registry of the type's declarations, and is reused afterwards |
| Controls.Control.CommandInfoCache | Aras.ViewModel/Control.cs:178-203 | the command cache is built on first access as the registry of the commands, and is reused afterwards |
| Controls.Control.PropertyNames | Aras.ViewModel/Control.cs:243-249 | `Properties` lists each registered name once and lists exactly the declared names |
| Controls.Control.CommandNames | Aras.ViewModel/Control.cs:205-211 | `Commands` lists each command name once and lists exactly the declared names |
| Controls.Control.HasProperty | Aras.ViewModel/Control.cs:251-254 | true exactly for a declared name |
| Controls.Control.PropertyDetails | Aras.ViewModel/Control.cs:256-274 | an undeclared name fails with key-not-found; a declared name yields its last declaration |
| Controls.Control.GetPropertyType | Aras.ViewModel/Control.cs:271-274 | fails exactly for an undeclared name; otherwise gives the declared type |
| Controls.Control.GetPropertyReadOnly | Aras.ViewModel/Control.cs:266-269 | fails exactly for an undeclared name; otherwise gives the declared read-only flag |
| Controls.Control.GetPropertyValue | Aras.ViewModel/Control.cs:256-259 | fails exactly for an undeclared name; otherwise reads the property through its registered accessor |
| Controls.Control.GetCommand | Aras.ViewModel/Control.cs:213-216 | fails exactly for an unregistered command name; otherwise gives the registered command |
| Controls.Control.SetPropertyValue | Aras.ViewModel/Control.cs:261-264 | an unknown name fails with key-not-found. Otherwise it succeeds exactly when the property has a setter that takes the value; reflection reaches private setters too, so InError and ErrorMessage are written and notified. Null becomes false in a Boolean property and 0 in Region. After success the property reads the written value, and no other property has changed. A failure changes nothing |
| Controls.Control.Write | Aras.ViewModel/Control.cs:261-264 | a setter, public or private, either writes the value so that it is read back (null converted to a value type's default) and changes no other property, or fails as an argument error and changes nothing. Enabled, InError and ErrorMessage notify exactly when what they read changes; the other setters do not notify |
| Controls.ReadWritesBack | Aras.ViewModel/Control.cs:256-264 | get then set round-trips: a base property takes back the value it reads, unchanged and without notification; a stored property does so exactly when it has a setter |
| Controls.Control.Controls | Aras.ViewModel/Control.cs:276-311 | the snapshot is the first-seen de-duplication of the controls held by the registered properties' values, in registry order |
| Controls.Control.RunRefresh | Aras.ViewModel/Control.cs:373-378 | Refresh leaves its `CanExecute` true |
| ListValues.HooksProjectBinding | Aras.ViewModel/ListValue.cs:83-108 | the before-hook clears Value and Label exactly when something is bound; the hooks notify only "Value" and "Label" |
| ListValues.SwitchReportsValueTwice | Aras.ViewModel/ListValue.cs:83-108 | switching between two entries with the same value still notifies "Value" twice, once from each hook |
| ListValues.ListValue.constructor | Aras.ViewModel/ListValue.cs:115-119 | a new list value is unbound, shows nothing, and so shows its binding |
| ListValues.ListValue.SetValue | Aras.ViewModel/ListValue.cs:34-50 | sets Value and notifies "Value" exactly when it differs, null being equal to null |
| ListValues.ListValue.SetLabel | Aras.ViewModel/ListValue.cs:52-68 | sets Label and notifies "Label" exactly when it differs, null being equal to null |
| ListValues.ListValue.SetBinding | Aras.ViewModel/Control.cs:134-166 | the binding protocol with the list entry's check and hooks: it fails exactly when it acts on a value that is not a list entry or null, leaving binding, Value and Label unchanged; otherwise it binds and shows the new entry |
| ListValues.ListValue.Cycle | Aras.ViewModel/Control.cs:147-151 | one real change with this control's check and hooks; a refused value changes nothing but the check's log entry |
| ListValues.ListValue.Switch | Aras.ViewModel/Control.cs:148-151 | the accepted part of a change: before-hook, assign, after-hook, notify; afterwards the control shows the new binding |
| ListValues.ListValue.CheckBinding | Aras.ViewModel/ListValue.cs:70-81 | accepts exactly null or a list entry; anything else is an argument error |
| ListValues.ListValue.BeforeBindingChanged | Aras.ViewModel/ListValue.cs:99-108 | clears Value and Label when bound, does nothing when unbound |
| ListValues.ListValue.AfterBindingChanged | Aras.ViewModel/ListValue.cs:83-97 | Value and Label become the bound entry's "value" and "label", or null when unbound |
| ListValues.ListValue.ToString | Aras.ViewModel/ListValue.cs:110-113 | returns Value in every state; while the control is in step with its binding, that is the bound entry's value |
| RelationshipTrees.PrecedingSiblingIsEarlierSibling | Aras.ViewModel/RelationshipTree.cs:845-865 | the sibling before the selection is a different child of the same parent, listed earlier |
| RelationshipTrees.NewParentNode | Aras.ViewModel/RelationshipTree.cs:845-865 | the walk returns the child just before the selected one, or null when the selected one is first |
| RelationshipTrees.NewParentOf | Aras.ViewModel/RelationshipTree.cs:845-865 | Indent's new parent is a node of the table, is not the selection, and is a child of the selection's parent |
| RelationshipTrees.RefreshedMeaning | Aras.ViewModel/RelationshipTree.cs:214-225 | after `RefreshCommands`: Save and Undo are enabled iff a transaction is open; Copy iff something is selected; Cut and Delete iff the selection's parent may be updated; Indent and Outdent iff their guards hold; Paste and Add iff the selected item may be updated (Paste also needs a full buffer). These are the corrected Paste guard and the corrected Add owner from ## Findings. Refresh, Select and SearchClosed are untouched |
| RelationshipTrees.IndentTarget | Aras.ViewModel/RelationshipTree.cs:810-827 | Indent has a target iff the selection is not its parent's first child, and the target is the sibling just before it |
| RelationshipTrees.EnabledEditsUpdateUpdatable | Aras.ViewModel/RelationshipTree.cs:409-827 | every item an enabled Cut, Delete, Outdent, Indent, Paste or Add goes on to update may be updated |
| RelationshipTrees.SelectFoldIsLastOwn | Aras.ViewModel/RelationshipTree.cs:329-343 | Select leaves the last parameter that is a node of this tree selected; with none, the selection is unchanged |
| RelationshipTrees.SelectNotesBounded | Aras.ViewModel/RelationshipTree.cs:329-343 | Select notifies only "Selected", at most once per parameter |
| RelationshipTrees.BindAsWritten | Aras.ViewModel/RelationshipTree.cs:227-261 | as written, a non-item that the setter acts on is assigned and then throws |
| RelationshipTrees.BindAsWrittenKeepsRejectedValue | Aras.ViewModel/RelationshipTree.cs:252-255 | binding an unbound tree to a non-item throws, yet leaves the non-item bound |
| RelationshipTrees.PasteGuardAsWrittenMismatch | Aras.ViewModel/RelationshipTree.cs:535-570 | the written Paste guard enables Paste on an item that may not be updated and disables it at the root, where Run would work |
| RelationshipTrees.AddOwnerAsWritten | Aras.ViewModel/RelationshipTree.cs:354-360 | the self-cast getter never yields a tree; at every stack depth it ends in a stack overflow |
| RelationshipTrees.RelationshipTree.constructor | Aras.ViewModel/RelationshipTree.cs:271-296 | a new tree is empty, unbound, shows no search, has no buffer or transaction, and only Refresh, Select and SearchClosed are enabled |
| RelationshipTrees.RelationshipTree.SetSelected | Aras.ViewModel/RelationshipTree.cs:127-145 | a node takes effect only if it belongs to this tree and is not already selected; null clears the selection; "Selected" is notified exactly when the selection changes |
| RelationshipTrees.RelationshipTree.SetShowSearch | Aras.ViewModel/RelationshipTree.cs:156-163 | sets ShowSearch and notifies exactly when it changes |
| RelationshipTrees.RelationshipTree.GetNodeFromCache | Aras.ViewModel/RelationshipTree.cs:171-181 | null exactly when the ID is not cached; otherwise exactly the node the cache files under that ID, whose item or relationship has that ID |
| RelationshipTrees.RelationshipTree.AddNodeToCache | Aras.ViewModel/RelationshipTree.cs:183-193 | files the node under its relationship's ID, or under its item's ID when it has no relationship, so that looking that key up finds it |
| RelationshipTrees.RelationshipTree.Transaction | Aras.ViewModel/RelationshipTree.cs:198-212 | begins a transaction on the first read while bound, returns the same one until it is cleared, and stays null while unbound |
| RelationshipTrees.RelationshipTree.RefreshCommands | Aras.ViewModel/RelationshipTree.cs:214-225 | the flags become the re-evaluated guards of Copy, Cut, Delete, Paste, Save, Indent, Outdent, Undo and Add. Paste uses the corrected guard from ## Findings: the selected item may be updated, not its parent's. Add reads the owning tree, not the self-referencing getter |
| RelationshipTrees.RelationshipTree.IndentCanExecute | Aras.ViewModel/RelationshipTree.cs:810-827 | Indent's guard: a parent, not the first child, and both the parent and the preceding sibling may be updated |
| RelationshipTrees.RelationshipTree.SetBinding | Aras.ViewModel/RelationshipTree.cs:227-261 | the binding protocol with the tree's hooks: it fails exactly when it acts on a non-item, leaving the binding, the table, the root and the cache as they were; a real change that succeeds leaves the table, cache and root that `Rooted` gives for the new binding; the tree stays bound to an item or to nothing |
| RelationshipTrees.RelationshipTree.RunBindingCycle | Aras.ViewModel/Control.cs:147-151 | one real change: a non-item is refused after the check alone; an item or null runs both hooks and the notification, and leaves the table, cache and root that `Rooted` gives for the new binding |
| RelationshipTrees.Rooted | Aras.ViewModel/RelationshipTree.cs:227-261 | there is a root exactly when bound; the root shows the bound item and is the node the cache files under its ID; a cached ID reuses that node without growing the table or the cache, an uncached one appends the root and keeps the existing nodes; unbound, nothing changes |
| RelationshipTrees.RelationshipTree.AfterBindingChanged | Aras.ViewModel/RelationshipTree.cs:227-261 | the root is the cached node of the bound item, rebound to it, or else a new root node that is cached; unbound, there is no root (the table, cache and root `Rooted` gives) |
| RelationshipTrees.RelationshipTree.AddRoot | Aras.ViewModel/RelationshipTree.cs:238-243 | a new root node shows the item and is cached under the item's ID |
| RelationshipTrees.RelationshipTree.RebindRoot | Aras.ViewModel/RelationshipTree.cs:244-247 | the cached node becomes the root and shows the newly bound item; the table stays well formed |
| RelationshipTrees.RelationshipTree.RunRefresh | Aras.ViewModel/RelationshipTree.cs:306-310 | refreshes the root node, if any, and leaves Refresh enabled |
| RelationshipTrees.RelationshipTree.RunSelect | Aras.ViewModel/RelationshipTree.cs:329-343 | the selection becomes the fold of the Selected setter over the parameters, notifications included, then the flags are refreshed; no parameter list does nothing |
| RelationshipTrees.RelationshipTree.RunAdd | Aras.ViewModel/RelationshipTree.cs:381-391 | ShowSearch becomes "a node is selected", read from the owning tree |
| RelationshipTrees.RelationshipTree.RunCut | Aras.ViewModel/RelationshipTree.cs:428-453 | with a parent: buffers the selected item; stages Update(parent item) then Delete(selection's relationship) in one transaction; refreshes the parent; selects it. Without a parent nothing changes |
| RelationshipTrees.RelationshipTree.RunCopy | Aras.ViewModel/RelationshipTree.cs:507-517 | buffers the selected item and stages nothing |
| RelationshipTrees.RelationshipTree.RunPaste | Aras.ViewModel/RelationshipTree.cs:554-570 | with a selection and a buffer, stages an update of the selected item and refreshes it |
| RelationshipTrees.RelationshipTree.RunDelete | Aras.ViewModel/RelationshipTree.cs:607-632 | with a parent: stages Update(parent item) then Delete(selection's relationship) in one transaction, and selects the parent. Without a parent nothing changes |
| RelationshipTrees.RelationshipTree.RunSave | Aras.ViewModel/RelationshipTree.cs:662-672 | commits the open transaction without keeping it and clears it, so Save and Undo become disabled |
| RelationshipTrees.RelationshipTree.RunUndo | Aras.ViewModel/RelationshipTree.cs:702-715 | rolls the open transaction back, clears it and refreshes the tree, so Save and Undo become disabled |
| RelationshipTrees.RelationshipTree.RunOutdent | Aras.ViewModel/RelationshipTree.cs:752-792 | with a parent and a grandparent: stages Update(parent), Delete(relationship), Update(grandparent) in that order in one transaction, and selects the grandparent |
| RelationshipTrees.RelationshipTree.RunIndent | Aras.ViewModel/RelationshipTree.cs:867-904 | when the selection has a preceding sibling: stages Update(parent), Delete(relationship), Update(preceding sibling) in one transaction, and selects that sibling |
| RelationshipTrees.RelationshipTree.RunSearchClosed | Aras.ViewModel/RelationshipTree.cs:914-917 | ShowSearch becomes false, with a notification only if it was true |
| RelationshipTrees.RelationshipTree.SearchSelectionChanged | Aras.ViewModel/RelationshipTree.cs:461-483 | with a node selected, stages an update of the selected item and refreshes it; in every case hides the search grid. The handler's second test, that the search grid's selection list is not null, is taken to hold: the constructor subscribes to that list, and `Grids.Search` is assumed to keep the same list for its lifetime (`Grids.Search` is not part of this model) |
| FilterDialogs.FieldConditionMeaning | Aras.ViewModel/Dialogs/Filters.cs:63-157 | a field fails exactly when its type is unknown, and contributes exactly when it holds a usable value: Boolean gives "1"/"0", Item gives its ID, the free-text kinds give `Like`, the others `Eq`, on the field's own property |
| FilterDialogs.ContributionsAppend | Aras.ViewModel/Dialogs/Filters.cs:59-177 | the contributions of a table are those of its first part followed by those of the rest; the first failure wins |
| FilterDialogs.ContributionsAreLeaves | Aras.ViewModel/Dialogs/Filters.cs:63-157 | every contribution is a single comparison |
| FilterDialogs.FirstUnknown | Aras.ViewModel/Dialogs/Filters.cs:155-156 | the position of the first field of unknown type, or the length of the table when there is none |
| FilterDialogs.ConditionFailsOnUnknown | Aras.ViewModel/Dialogs/Filters.cs:155-156 | `Condition()` fails exactly when some field has an unknown type, with that first field's error |
| FilterDialogs.ConditionAllIffNoValue | Aras.ViewModel/Dialogs/Filters.cs:179-182 | with only known types, the condition is `All` exactly when no field holds a usable value |
| FilterDialogs.EmptyIffNoValue | Aras.ViewModel/Dialogs/Filters.cs:59-177 | a table contributes nothing exactly when no field holds a usable value |
| FilterDialogs.ConditionOfSingle | Aras.ViewModel/Dialogs/Filters.cs:159-176 | with exactly one contributing field, the condition is that field's comparison itself |
| FilterDialogs.ConditionOfSeveral | Aras.ViewModel/Dialogs/Filters.cs:159-176 | with two or more contributing fields, the condition is one `And` of comparisons in table order |
| FilterDialogs.ContributionAt | Aras.ViewModel/Dialogs/Filters.cs:159-176 | a contributing field's comparison sits between the contributions before it and those after it |
| FilterDialogs.ClearField | Aras.ViewModel/Dialogs/Filters.cs:191-228 | a cleared field of known type keeps its property, holds no value and contributes nothing |
| FilterDialogs.ClearAll | Aras.ViewModel/Dialogs/Filters.cs:187-230 | clearing a table clears each field in place |
| FilterDialogs.ClearThenConditionIsAll | Aras.ViewModel/Dialogs/Filters.cs:187-230 | after a complete Clear, the condition is `All` |
| FilterDialogs.ClearStopsWhereConditionFails | Aras.ViewModel/Dialogs/Filters.cs:226-227 | a Clear that stopped at an unknown field leaves the condition failing with that same error |
| FilterDialogs.DialogHeight | Aras.ViewModel/Dialogs/Filters.cs:296-297 | the height is 50 plus 60 per started group of three property types, i.e. ceil(n/3)·60 + 50 |
| FilterDialogs.Filters.constructor | Aras.ViewModel/Dialogs/Filters.cs:233-298 | the dialog is 600 wide and `DialogHeight(n)` high for n property types, and both commands are enabled |
| FilterDialogs.Filters.Condition | Aras.ViewModel/Dialogs/Filters.cs:55-185 | the accumulating loop returns exactly the fold `ConditionOf` of the fields, whose meaning the lemmas above state |
| FilterDialogs.Filters.Clear | Aras.ViewModel/Dialogs/Filters.cs:187-230 | nulls the fields in table order up to the first field of unknown type, which throws and leaves the rest as they were |
| FilterDialogs.Filters.RunApplyFilter | Aras.ViewModel/Dialogs/Filters.cs:302-308 | closes the dialog and leaves ApplyFilter enabled |
| FilterDialogs.Filters.RunClearFilter | Aras.ViewModel/Dialogs/Filters.cs:319-328 | clears the fields; on success closes the dialog, leaves ClearFilter enabled, and the condition is `All`; when Clear throws, the dialog stays open as it was |

## Left out

- Reflection (`GetProperties`, `GetCustomAttributes`, `PropertyInfo.GetValue/SetValue`) is replaced by an explicit registration table. Each control type's declarations come first, followed by Control's own. A value of the wrong kind written to one of Control's own properties is modelled as an argument error. A null written to a base Boolean property or to Region becomes that type's default.
- The `PropertyChanged` event and the search grid's `ListChanged` subscription are recorded as an event log. Delegate dispatch and re-entrancy are not modelled.
- Backend persistence and queries (BeginTransaction, Item.Update, Relationship.Delete, Commit, RollBack, node Refresh and RefreshChildren) are recorded as a log of calls. Their effects on the backend are not modelled, and refreshes do not change the node table.
- Lazy loading of a node's children is a backend query. `RelationshipTrees.RelationshipTree.AddChildNode` only stands in for it, so that the table can grow while staying well formed.
- The relationship creates of Paste, Indent, Outdent and the search selection are commented out in the source, so none is staged.
- The `Command` base class is not part of this model. `CanExecute` is a plain boolean, and each `Run*` method runs whatever `CanExecute` says, as `Run` itself does.
- Controls.Control.Write: a property that a concrete control declares (a `Stored` accessor) accepts a value of any kind when it has a setter, where `PropertyInfo.SetValue` throws an argument error for a value its CLR type does not take. A null written to such a property is kept as null rather than replaced by the type's default. Both follow from the model not knowing the CLR type of those properties; the declared `PropertyTypes` tag is metadata for clients (Region, for one, is an enum tagged Int32), not the CLR type.
- Controls.Control.SetPropertyValue: inherits the gap of `Write` for properties that a concrete control declares: a value of any kind is accepted by a property with a setter, and a null is not converted to the type's default.
- ListValues.ListValue.constructor: ListValue's own `Value` and `Label` properties (String, not read-only) are not entered in its control's registry. `HasProperty`, `GetPropertyValue` and `SetPropertyValue` therefore do not reach them, and they are read and written only through `SetValue` and `SetLabel`. The reason is that the concrete controls hold a base `Control` rather than extending it, so the base control's accessors cannot reach a concrete control's fields.
- The tree's commands live in the tree's `canExecute` record rather than in separate Command objects, and the tree's own registered properties and commands are not entered in its registry.
- `AddCommand`'s constructor never sets `CanExecute`, so Add starts disabled (taken as the default `false`) until the first `RefreshCommands`.
- `Guid.NewGuid()` is not modelled: the ID is a parameter of each constructor.
- `Manager.Session`, formatters, the `RelationshipType` setters and the dialog chrome (title, layout, toolbar, buttons, the Close command) are not modelled.
  - The filter fields the session creates are a constructor parameter, and so is the dialog's initial `Open` flag.
- Decimal and floating-point filter values are modelled as mathematical reals, and the string comparisons of `Value` and `Label` as sequence equality (culture-sensitive comparison is not modelled).
- FilterDialogs.DialogHeight: does not model Int32 overflow of the height, which needs some 10^8 property types.
- ListValues.ListValue.SetBinding: the property controls refer to their binding by value, so aliasing between controls sharing a backend object is not captured. Tree bindings also compare structurally, where .NET compares items by its own `Equals`.
- Unbinding: a bound control assigned null runs the whole cycle, with `CheckBinding(null)`, both hooks and the notification, although one might expect no change. The setter's second branch tests `Equals(null)`, which is false. The model follows the code.
- Control.cs `RefreshControl` and the tree's `RefreshControl` are modelled only through `RunRefresh`, the only place they are called. The tree's method is declared `protected virtual`, not `override`, so it hides Control's method rather than overriding it: Control's own Refresh command runs the empty base method on a tree, and only the tree's own Refresh command refreshes the root.

## Findings

| source | as written | input that shows it | evidently intended | confidence | as-written member | corrected member |
|---|---|---|---|---|---|---|
| Aras.ViewModel/RelationshipTree.cs:227-261 | the tree's type check sits in `AfterBindingChanged`, which runs after the base setter has assigned the value | bind an unbound tree to any non-item object: it throws, yet the object stays bound, and "Binding" is never notified | refuse a non-item in `CheckBinding`, before anything changes | not executed | RelationshipTrees.BindAsWrittenKeepsRejectedValue | RelationshipTrees.RelationshipTree.SetBinding |
| Aras.ViewModel/RelationshipTree.cs:535-570 | Paste is enabled when the selection's parent may be updated, but Run updates the selected item itself | a child whose item may not be updated under an updatable parent enables Paste; the root, whose item may be updated, disables it | enable Paste when the selected item may be updated and the buffer is full | not executed | RelationshipTrees.PasteGuardAsWrittenMismatch | RelationshipTrees.EnabledEditsUpdateUpdatable |
| Aras.ViewModel/RelationshipTree.cs:354-360 | `AddCommand.RelationshipTree` returns itself cast, so reading it recurses forever | any read of the property, from `UpdateCanExecute` or `Run` | return the tree that owns the command | not executed | RelationshipTrees.AddOwnerAsWritten | RelationshipTrees.RelationshipTree.RunAdd |

=== FILE: common.dfy ===
/** Failure-carrying values shared by every module of the model. */
module Wrappers {

  datatype Option<+T> = None | Some(value: T)

  /** The exceptions the view-model layer raises: `Model.Exceptions.ArgumentException`,
      the dictionary's key-not-found failure for an unregistered name, and the stack
      overflow of an unbounded recursion. */
  datatype Error = ArgumentError(message: string) | NotFound(name: string) | StackOverflow

  /** Outcome of an operation that returns nothing but may throw. */
  datatype Outcome = Ok | Fail(error: Error)

  /** Outcome of an operation that returns a value or throws. */
  datatype Result<+T> = Success(value: T) | Failure(error: Error)
}

/** The backend collaborators the view model consumes, reduced to the data it reads. */
module Backend {
  import opened Wrappers

  /** `Model.Item`: its identifier and whether the current user may update it. */
  datatype Item = Item(id: string, canUpdate: bool)

  /** `Model.Relationship`: the record that links a child item to its parent item. */
  datatype Relationship = Relationship(id: string)

  /** The objects a control can be bound to. `ValueObj` is `Model.Relationships.Value`, a list
      entry whose "value" and "label" properties hold strings or null (`labelText` holds "label"); `OtherObj` stands for
      any other backend object. */
  datatype Obj =
    | ItemObj(item: Item)
    | ValueObj(id: string, value: Option<string>, labelText: Option<string>)
    | OtherObj(id: string)
}

/** Sequence facts used by the control runtime (first-seen de-duplication) and by the tree
    (the sibling that precedes a node). */
module Seqs {

  predicate Distinct<T(==)>(s: seq<T>) {
    forall i, j | 0 <= i < j < |s| :: s[i] != s[j]
  }

  /** Position of the first occurrence of `x` in `s`. */
  function FirstIndex<T(==)>(s: seq<T>, x: T): (k: nat)
    requires x in s
    ensures k < |s| && s[k] == x && x !in s[..k]
  {
    if s[0] == x then 0
    else
      var k := 1 + FirstIndex(s[1..], x);
      assert s[..k] == [s[0]] + s[1..][..k - 1];
      k
  }

  /** A position holding `x` with no earlier `x` is the first index of `x`. */
  lemma FirstIndexUnique<T>(s: seq<T>, x: T, k: nat)
    requires k < |s| && s[k] == x && x !in s[..k]
    ensures FirstIndex(s, x) == k
  {
  }

  /** The first occurrence of an element of a prefix is found inside that prefix. */
  lemma FirstIndexInPrefix<T>(s: seq<T>, m: nat, x: T)
    requires m <= |s| && x in s[..m]
    ensures FirstIndex(s, x) == FirstIndex(s[..m], x)
  {
    var k := FirstIndex(s[..m], x);
    assert s[..m][..k] == s[..k];
    FirstIndexUnique(s, x, k);
  }

  /** A sequence is the part before a position, the element there, and the part after. */
  lemma SplitAt<T>(s: seq<T>, k: nat)
    requires k < |s|
    ensures s[..k] + [s[k]] + s[k + 1..] == s
  {
  }

  /** Append `x` unless an equal element is already there (List.Contains, then List.Add). */
  function AppendNew<T(==)>(acc: seq<T>, x: T): seq<T> {
    if x in acc then acc else acc + [x]
  }

  /** Left-to-right de-duplication that keeps the first occurrence of each element. */
  function Dedup<T(==)>(s: seq<T>): seq<T>
    decreases |s|
  {
    if |s| == 0 then [] else AppendNew(Dedup(s[..|s| - 1]), s[|s| - 1])
  }

  lemma DedupSnoc<T>(s: seq<T>, x: T)
    ensures Dedup(s + [x]) == AppendNew(Dedup(s), x)
  {
    assert (s + [x])[..|s|] == s;
  }

  /** De-duplication keeps every element, once. */
  lemma {:induction false} DedupSound<T>(s: seq<T>)
    ensures Distinct(Dedup(s))
    ensures forall x :: x in Dedup(s) <==> x in s
  {
    if |s| > 0 {
      var p := s[..|s| - 1];
      DedupSound(p);
      assert s == p + [s[|s| - 1]];
    }
  }

  /** De-duplication lists elements in the order of their first occurrence. */
  lemma {:induction false} DedupFirstSeenOrder<T>(s: seq<T>, i: nat, j: nat)
    requires i < j < |Dedup(s)|
    ensures Dedup(s)[i] in s && Dedup(s)[j] in s
    ensures FirstIndex(s, Dedup(s)[i]) < FirstIndex(s, Dedup(s)[j])
  {
    var n := |s|;
    var p := s[..n - 1];
    var last := s[n - 1];
    var d := Dedup(p);
    assert Dedup(s) == AppendNew(d, last);
    if j < |d| {
      assert Dedup(s)[i] == d[i] && Dedup(s)[j] == d[j];
      DedupFirstSeenOrder(p, i, j);
      FirstIndexInPrefix(s, n - 1, d[i]);
      FirstIndexInPrefix(s, n - 1, d[j]);
    } else {
      assert last !in d && Dedup(s) == d + [last];
      assert Dedup(s)[i] == d[i] && Dedup(s)[j] == last;
      DedupMember(p, i);
      FirstIndexInPrefix(s, n - 1, d[i]);
      DedupSound(p);
      assert last !in p;
      FirstIndexUnique(s, last, n - 1);
    }
  }

  lemma DedupMember<T>(p: seq<T>, i: nat)
    requires i < |Dedup(p)|
    ensures Dedup(p)[i] in p
  {
    DedupSound(p);
    assert Dedup(p)[i] in Dedup(p);
  }
}

=== FILE: control.dfy ===
/** The runtime every view-model control shares (Aras.ViewModel/Control.cs): identity,
    enabled and error state with change-only notification, the Binding setter's
    check/before/assign/after/notify protocol, the name-keyed property and command
    registries that replace reflection, and the de-duplicated `Controls` snapshot. */
module Controls {
  import opened Wrappers
  import opened Backend
  import opened Seqs

  /** `System.Guid`, field by field as .NET lays it out. */
  datatype Guid = Guid(a: bv32, b: bv16, c: bv16, d: bv8, e: bv8, f: bv8, g: bv8, h: bv8, i: bv8, j: bv8, k: bv8)

  /** `Guid.GetHashCode` as the .NET Framework computes it. */
  function GuidHash(id: Guid): bv32 {
    id.a ^ (((id.b as bv32) << 16) | (id.c as bv32)) ^ (((id.f as bv32) << 24) | (id.k as bv32))
  }

  /** `Regions`, numbered 1 to 7; `Unnumbered` is the enum's default value 0, which names no
      region. */
  datatype Region = Unnumbered | Top | Bottom | Right | Left | Center | Leading | Trailing

  /** The `Attributes.PropertyTypes` tags that the core's declarations use. */
  datatype PropertyType = BooleanType | Int32Type | StringType | ControlType

  /** How a registered name is read and written: one of the base control's own properties,
      or a property of the concrete control type whose value the control stores by name
      (with or without a setter, public or private). */
  datatype Accessor =
    | RegionSlot
    | TooltipSlot
    | EnabledSlot
    | InErrorSlot
    | ErrorMessageSlot
    | Stored(hasSetter: bool)

  /** What the `Attributes.Property` marker declares about a property, plus its accessor. */
  datatype PropertyInfo = PropertyInfo(ptype: PropertyType, readOnly: bool, accessor: Accessor)

  /** A property value as the generic accessors see it. Controls are referred to by ID. */
  datatype Value =
    | Null
    | Bool(b: bool)
    | Str(s: string)
    | RegionValue(region: Region)
    | ControlRef(id: Guid)
    | ControlList(ids: seq<Guid>)
    | Opaque(key: string)

  function OfString(s: Option<string>): Value {
    match s
    case None => Null
    case Some(t) => Str(t)
  }

  /** The properties `Control` itself declares, in declaration order. */
  const BaseProperties: seq<(string, PropertyInfo)> := [
    ("Region", PropertyInfo(Int32Type, true, RegionSlot)),
    ("Tooltip", PropertyInfo(StringType, true, TooltipSlot)),
    ("Enabled", PropertyInfo(BooleanType, true, EnabledSlot)),
    ("InError", PropertyInfo(BooleanType, true, InErrorSlot)),
    ("ErrorMessage", PropertyInfo(StringType, true, ErrorMessageSlot))
  ]

  // ---------------------------------------------------------------------------------------
  // Registries: the lazily built name -> accessor dictionaries

  /** A name-keyed dictionary as .NET's `Dictionary` keeps it: keys in first-insertion order;
      a later entry for a name overwrites the earlier one in place. */
  datatype Registry<T> = Registry(names: seq<string>, entries: map<string, T>)

  function Register<T>(r: Registry<T>, name: string, x: T): Registry<T> {
    Registry(if name in r.entries then r.names else r.names + [name], r.entries[name := x])
  }

  /** The dictionary obtained by registering the declarations one after the other. */
  function BuildRegistry<T>(decls: seq<(string, T)>): Registry<T>
    decreases |decls|
  {
    if |decls| == 0 then Registry([], map[])
    else
      var last := decls[|decls| - 1];
      Register(BuildRegistry(decls[..|decls| - 1]), last.0, last.1)
  }

  function Names<T>(decls: seq<(string, T)>): (r: seq<string>)
    ensures |r| == |decls| && forall i | 0 <= i < |decls| :: r[i] == decls[i].0
  {
    seq(|decls|, i requires 0 <= i < |decls| => decls[i].0)
  }

  /** The position of the last declaration of `name`, the one whose entry survives. */
  function LastIndex<T>(decls: seq<(string, T)>, name: string): (k: nat)
    requires name in Names(decls)
    ensures k < |decls| && decls[k].0 == name
    ensures forall j | k < j < |decls| :: decls[j].0 != name
    decreases |decls|
  {
    var n := |decls|;
    if decls[n - 1].0 == name then n - 1
    else
      assert Names(decls) == Names(decls[..n - 1]) + [decls[n - 1].0];
      LastIndex(decls[..n - 1], name)
  }

  /** The registry lists each declared name once, in first-declared order. */
  lemma {:induction false} RegistryNames<T>(decls: seq<(string, T)>)
    ensures BuildRegistry(decls).names == Dedup(Names(decls))
    decreases |decls|
  {
    var n := |decls|;
    if n > 0 {
      var prefix := decls[..n - 1];
      RegistryNames(prefix);
      RegistryKeys(prefix);
      assert Names(decls) == Names(prefix) + [decls[n - 1].0];
      DedupSnoc(Names(prefix), decls[n - 1].0);
      DedupSound(Names(prefix));
    }
  }

  /** The registry holds an entry exactly for the declared names. */
  lemma {:induction false} RegistryKeys<T>(decls: seq<(string, T)>)
    ensures forall name :: name in BuildRegistry(decls).entries <==> name in Names(decls)
    decreases |decls|
  {
    var n := |decls|;
    if n > 0 {
      var prefix := decls[..n - 1];
      RegistryKeys(prefix);
      assert Names(decls) == Names(prefix) + [decls[n - 1].0];
    }
  }

  /** The entry kept for a name is its last declaration. */
  lemma {:induction false} RegistryLastWins<T>(decls: seq<(string, T)>, name: string)
    requires name in Names(decls)
    ensures name in BuildRegistry(decls).entries
    ensures BuildRegistry(decls).entries[name] == decls[LastIndex(decls, name)].1
    decreases |decls|
  {
    var n := |decls|;
    if decls[n - 1].0 != name {
      assert Names(decls) == Names(decls[..n - 1]) + [decls[n - 1].0];
      RegistryLastWins(decls[..n - 1], name);
    }
  }

  /** The lazy-cache fill loop: register every declaration in order. */
  method BuildCache<T>(decls: seq<(string, T)>) returns (cache: Registry<T>)
    ensures cache == BuildRegistry(decls)
  {
    cache := Registry([], map[]);
    var i := 0;
    while i < |decls|
      invariant 0 <= i <= |decls|
      invariant cache == BuildRegistry(decls[..i])
    {
      assert decls[..i + 1][..i] == decls[..i];
      cache := Register(cache, decls[i].0, decls[i].1);
      i := i + 1;
    }
    assert decls[..|decls|] == decls;
  }

  // ---------------------------------------------------------------------------------------
  // The Controls snapshot

  /** The controls one property value contributes: itself if it is a control, its elements if
      it is a sequence of controls, nothing otherwise. */
  function ControlsIn(v: Value): seq<Guid> {
    match v
    case ControlRef(id) => [id]
    case ControlList(ids) => ids
    case _ => []
  }

  function Flatten(values: seq<Value>): seq<Guid>
    decreases |values|
  {
    if |values| == 0 then [] else Flatten(values[..|values| - 1]) + ControlsIn(values[|values| - 1])
  }

  /** The `Controls` loop: walk the property values in order and add each control not yet
      collected (controls compare by ID). */
  method CollectControls(values: seq<Value>) returns (controls: seq<Guid>)
    ensures controls == Dedup(Flatten(values))
  {
    controls := [];
    var i := 0;
    while i < |values|
      invariant 0 <= i <= |values|
      invariant controls == Dedup(Flatten(values[..i]))
    {
      assert values[..i + 1][..i] == values[..i];
      controls := AddNew(controls, Flatten(values[..i]), ControlsIn(values[i]));
      i := i + 1;
    }
    assert values[..|values|] == values;
  }

  /** The inner step of the `Controls` loop: add each of `ids` unless already collected. */
  method AddNew(acc: seq<Guid>, ghost seen: seq<Guid>, ids: seq<Guid>) returns (r: seq<Guid>)
    requires acc == Dedup(seen)
    ensures r == Dedup(seen + ids)
  {
    r := acc;
    var j := 0;
    assert seen + ids[..0] == seen;
    while j < |ids|
      invariant 0 <= j <= |ids|
      invariant r == Dedup(seen + ids[..j])
    {
      assert seen + ids[..j + 1] == (seen + ids[..j]) + [ids[j]];
      DedupSnoc(seen + ids[..j], ids[j]);
      if ids[j] !in r {
        r := r + [ids[j]];
      }
      j := j + 1;
    }
    assert ids[..|ids|] == ids;
  }

  /** What the snapshot promises: every control reachable from a property value, each once,
      in the order in which the walk first meets it. */
  lemma ControlsSnapshot(values: seq<Value>, i: nat, j: nat)
    ensures Distinct(Dedup(Flatten(values)))
    ensures forall c :: c in Dedup(Flatten(values)) <==> c in Flatten(values)
    ensures i < j < |Dedup(Flatten(values))| ==>
      FirstIndex(Flatten(values), Dedup(Flatten(values))[i]) < FirstIndex(Flatten(values), Dedup(Flatten(values))[j])
  {
    DedupSound(Flatten(values));
    if i < j < |Dedup(Flatten(values))| {
      DedupFirstSeenOrder(Flatten(values), i, j);
    }
  }

  // ---------------------------------------------------------------------------------------
  // The Binding protocol

  /** The hook and notification log of a control. */
  datatype Event =
    | Checked(candidate: Option<Obj>)      // CheckBinding(candidate) was called
    | BeforeBinding(current: Option<Obj>)  // BeforeBindingChanged ran while `current` was bound
    | AfterBinding(current: Option<Obj>)   // AfterBindingChanged ran while `current` was bound
    | Notified(property: string)           // OnPropertyChanged(property)

  /** The notification a change-only setter emits. */
  function ChangeNote(changed: bool, property: string): seq<Event> {
    if changed then [Notified(property)] else []
  }

  /** Whether the Binding setter does anything, written as its two branches: from unbound, any
      non-null value; from bound, any value the current binding does not equal (null included). */
  predicate SetterActs(current: Option<Obj>, candidate: Option<Obj>) {
    if current.None? then candidate.Some?
    else !(candidate.Some? && current.value == candidate.value)
  }

  lemma SetterActsIffChange(current: Option<Obj>, candidate: Option<Obj>)
    ensures SetterActs(current, candidate) <==> current != candidate
  {
  }

  /** The events one assignment to `Binding` produces, given whether the control's
      `CheckBinding` accepts the candidate and the events its before- and after-hooks emit. */
  function BindingCycle(current: Option<Obj>, candidate: Option<Obj>, accepted: bool,
                        before: seq<Event>, after: seq<Event>): seq<Event>
  {
    if !SetterActs(current, candidate) then []
    else if !accepted then [Checked(candidate)]
    else [Checked(candidate), BeforeBinding(current)] + before + [AfterBinding(candidate)] + after + [Notified("Binding")]
  }

  /** A log that grew by an accepted cycle's events has grown by `BindingCycle`. */
  lemma AcceptedCycleLog(log: seq<Event>, start: seq<Event>, candidate: Option<Obj>, current: Option<Obj>,
                         before: seq<Event>, after: seq<Event>)
    requires SetterActs(current, candidate)
    requires log == start + [Checked(candidate)] + [BeforeBinding(current)] + before + [AfterBinding(candidate)] + after + [Notified("Binding")]
    ensures log == start + BindingCycle(current, candidate, true, before, after)
  {
  }

  /** The binding after one assignment. */
  function BoundAfter(current: Option<Obj>, candidate: Option<Obj>, accepted: bool): (r: Option<Obj>)
    ensures r == candidate || r == current
    ensures r == current <==> (current == candidate || !accepted)
  {
    if SetterActs(current, candidate) && accepted then candidate else current
  }

  /** A real change runs check, before-hook (old binding current), after-hook (new binding
      current) and the "Binding" notification, in that order and nothing after. */
  lemma CycleOrder(current: Option<Obj>, candidate: Option<Obj>, before: seq<Event>, after: seq<Event>)
    requires current != candidate
    ensures var r := BindingCycle(current, candidate, true, before, after);
      && |r| == 4 + |before| + |after|
      && r[0] == Checked(candidate)
      && r[1] == BeforeBinding(current)
      && r[2 + |before|] == AfterBinding(candidate)
      && r[|r| - 1] == Notified("Binding")
  {
  }

  /** Assigning the value just bound again runs nothing: binding a value twice is one cycle. */
  lemma RebindIsSilent(current: Option<Obj>, candidate: Option<Obj>, accepted: bool,
                       before: seq<Event>, after: seq<Event>)
    requires accepted
    ensures BindingCycle(BoundAfter(current, candidate, accepted), candidate, accepted, before, after) == []
  {
  }

  // ---------------------------------------------------------------------------------------
  // Commands and controls

  /** A command's enable gate (the `Command` base class is not part of this model). */
  class Command {
    var canExecute: bool

    constructor (canExecute: bool)
      ensures this.canExecute == canExecute
    {
      this.canExecute := canExecute;
    }
  }

  /** An argument of `Equals(object)`: null, a control, or any other object. */
  datatype Reference = NullRef | ControlRefTo(id: Guid) | OtherRef

  class Control {
    const id: Guid
    const refresh: Command
    const close: Command
    /** The registration table of the concrete type: its own declarations, then Control's. */
    const properties: seq<(string, PropertyInfo)>
    const commands: seq<(string, Command)>

    var region: Region
    var tooltip: Option<string>
    var enabled: bool
    var inError: bool
    var errorMessage: Option<string>
    var binding: Option<Obj>
    /** Values of the properties the concrete type declares with a `Stored` accessor. */
    var store: map<string, Value>
    var propertyCache: Option<Registry<PropertyInfo>>
    var commandCache: Option<Registry<Command>>
    var log: seq<Event>

    /** A cache, once built, holds the registry of the type's declarations. */
    ghost predicate Valid()
      reads this
    {
      && (propertyCache.Some? ==> propertyCache.value == BuildRegistry(properties))
      && (commandCache.Some? ==> commandCache.value == BuildRegistry(commands))
    }

    /** `new Control()`: the ID (`Guid.NewGuid()`) is supplied by the caller. */
    constructor (id: Guid, declared: seq<(string, PropertyInfo)>, declaredCommands: seq<(string, Command)>)
      ensures Valid()
      ensures this.id == id && properties == declared + BaseProperties
      ensures fresh(refresh) && fresh(close) && refresh != close
      ensures commands == declaredCommands + [("Refresh", refresh), ("Close", close)]
      ensures refresh.canExecute && close.canExecute
      ensures region == Center && tooltip == None && !enabled
      ensures !inError && errorMessage == None
      ensures binding == None && store == map[] && log == []
      ensures propertyCache == None && commandCache == None
    {
      var r := new Command(true);
      var c := new Command(true);
      this.id := id;
      refresh := r;
      close := c;
      properties := declared + BaseProperties;
      commands := declaredCommands + [("Refresh", r), ("Close", c)];
      region := Center;
      tooltip := None;
      enabled := false;
      inError := false;
      errorMessage := None;
      binding := None;
      store := map[];
      propertyCache := None;
      commandCache := None;
      log := [];
    }

    // ----- change-only setters and the error pair

    method SetEnabled(value: bool)
      modifies this`enabled, this`log
      ensures enabled == value
      ensures log == old(log) + ChangeNote(old(enabled) != value, "Enabled")
    {
      if enabled != value {
        enabled := value;
        log := log + [Notified("Enabled")];
      }
    }

    method SetInError(value: bool)
      modifies this`inError, this`log
      ensures inError == value
      ensures log == old(log) + ChangeNote(old(inError) != value, "InError")
    {
      if inError != value {
        inError := value;
        log := log + [Notified("InError")];
      }
    }

    method SetErrorMessage(value: Option<string>)
      modifies this`errorMessage, this`log
      ensures errorMessage == value
      ensures log == old(log) + ChangeNote(old(errorMessage) != value, "ErrorMessage")
    {
      if errorMessage != value {
        errorMessage := value;
        log := log + [Notified("ErrorMessage")];
      }
    }

    method ResetError()
      modifies this`inError, this`errorMessage, this`log
      ensures !inError && errorMessage == None
      ensures log == old(log) + ChangeNote(old(inError), "InError") + ChangeNote(old(errorMessage) != None, "ErrorMessage")
    {
      SetInError(false);
      SetErrorMessage(None);
    }

    method OnError(message: Option<string>)
      modifies this`inError, this`errorMessage, this`log
      ensures inError && errorMessage == message
      ensures log == old(log) + ChangeNote(!old(inError), "InError") + ChangeNote(old(errorMessage) != message, "ErrorMessage")
    {
      SetInError(true);
      SetErrorMessage(message);
    }

    // ----- the Binding setter, with Control's own hooks (check accepts anything, hooks empty)

    method SetBinding(value: Option<Obj>)
      modifies this`binding, this`log
      ensures binding == value
      ensures log == old(log) + BindingCycle(old(binding), value, true, [], [])
    {
      if binding.None? {
        if value.Some? {
          RunBindingCycle(value);
        }
      } else {
        if !(value.Some? && binding.value == value.value) {
          RunBindingCycle(value);
        }
      }
    }

    method RunBindingCycle(value: Option<Obj>)
      modifies this`binding, this`log
      ensures binding == value
      ensures log == old(log) + [Checked(value), BeforeBinding(old(binding)), AfterBinding(value), Notified("Binding")]
    {
      log := log + [Checked(value)];
      log := log + [BeforeBinding(binding)];
      binding := value;
      log := log + [AfterBinding(binding)];
      log := log + [Notified("Binding")];
    }

    // ----- registries

    /** `PropertyInfoCache`: filled on first access, then reused. */
    method PropertyInfoCache() returns (r: Registry<PropertyInfo>)
      requires Valid()
      modifies this`propertyCache
      ensures Valid() && propertyCache == Some(r)
      ensures r == BuildRegistry(properties)
      ensures old(propertyCache).Some? ==> propertyCache == old(propertyCache)
    {
      if propertyCache.None? {
        var cache := BuildCache(properties);
        propertyCache := Some(cache);
      }
      r := propertyCache.value;
    }

    /** `CommandInfoCache`: filled on first access, then reused. */
    method CommandInfoCache() returns (r: Registry<Command>)
      requires Valid()
      modifies this`commandCache
      ensures Valid() && commandCache == Some(r)
      ensures r == BuildRegistry(commands)
      ensures old(commandCache).Some? ==> commandCache == old(commandCache)
    {
      if commandCache.None? {
        var cache := BuildCache(commands);
        commandCache := Some(cache);
      }
      r := commandCache.value;
    }

    /** `Properties`: the registered names, each once, in first-declared order. */
    function PropertyNames(): (names: seq<string>)
      ensures Distinct(names)
      ensures forall n :: n in names <==> n in Names(properties)
    {
      RegistryNames(properties);
      DedupSound(Names(properties));
      BuildRegistry(properties).names
    }

    /** `Commands`: the registered command names, each once, in first-declared order. */
    function CommandNames(): (names: seq<string>)
      ensures Distinct(names)
      ensures forall n :: n in names <==> n in Names(commands)
    {
      RegistryNames(commands);
      DedupSound(Names(commands));
      BuildRegistry(commands).names
    }

    function HasProperty(name: string): (r: bool)
      ensures r <==> name in Names(properties)
    {
      RegistryKeys(properties);
      name in BuildRegistry(properties).entries
    }

    /** The descriptor registered for `name` (the last declaration of it), or NotFound. */
    function PropertyDetails(name: string): (r: Result<PropertyInfo>)
      ensures r.Failure? <==> name !in Names(properties)
      ensures r.Failure? ==> r.error == NotFound(name)
      ensures r.Success? ==> r.value == properties[LastIndex(properties, name)].1
    {
      RegistryKeys(properties);
      if name in BuildRegistry(properties).entries then
        RegistryLastWins(properties, name);
        Success(BuildRegistry(properties).entries[name])
      else Failure(NotFound(name))
    }

    function GetPropertyType(name: string): (r: Result<PropertyType>)
      ensures r.Failure? <==> !HasProperty(name)
      ensures r.Success? ==> r.value == properties[LastIndex(properties, name)].1.ptype
    {
      match PropertyDetails(name)
      case Success(info) => Success(info.ptype)
      case Failure(e) => Failure(e)
    }

    function GetPropertyReadOnly(name: string): (r: Result<bool>)
      ensures r.Failure? <==> !HasProperty(name)
      ensures r.Success? ==> r.value == properties[LastIndex(properties, name)].1.readOnly
    {
      match PropertyDetails(name)
      case Success(info) => Success(info.readOnly)
      case Failure(e) => Failure(e)
    }

    /** What an accessor reads. */
    function Read(name: string, a: Accessor): Value
      reads this
    {
      match a
      case RegionSlot => RegionValue(region)
      case TooltipSlot => OfString(tooltip)
      case EnabledSlot => Bool(enabled)
      case InErrorSlot => Bool(inError)
      case ErrorMessageSlot => OfString(errorMessage)
      case Stored(_) => if name in store then store[name] else Null
    }

    function GetPropertyValue(name: string): (r: Result<Value>)
      reads this
      ensures r.Failure? <==> !HasProperty(name)
      ensures r.Success? ==> r.value == Read(name, properties[LastIndex(properties, name)].1.accessor)
    {
      match PropertyDetails(name)
      case Success(info) => Success(Read(name, info.accessor))
      case Failure(e) => Failure(e)
    }

    function GetCommand(name: string): (r: Result<Command>)
      ensures r.Failure? <==> name !in Names(commands)
      ensures r.Success? ==> r.value == commands[LastIndex(commands, name)].1
    {
      RegistryKeys(commands);
      if name in BuildRegistry(commands).entries then
        RegistryLastWins(commands, name);
        Success(BuildRegistry(commands).entries[name])
      else Failure(NotFound(name))
    }

    /** `SetPropertyValue`: the registered accessor's setter, public or private, if it has one
        and takes the value; otherwise an argument error. An unregistered name is not found. */
    method SetPropertyValue(name: string, v: Value) returns (o: Outcome)
      requires Valid()
      modifies this`propertyCache, this`region, this`tooltip, this`enabled, this`inError, this`errorMessage
      modifies this`store, this`log
      ensures Valid() && propertyCache == Some(BuildRegistry(properties))
      ensures !HasProperty(name) ==> o == Fail(NotFound(name))
      ensures HasProperty(name) ==>
        var a := properties[LastIndex(properties, name)].1.accessor;
        && (o.Ok? <==> Writable(a, v))
        && (o.Ok? ==> GetPropertyValue(name) == Success(Converted(a, v)))
        && log == old(log) + WriteNotes(a, o, old(Read(name, a)), Read(name, a))
        && (o.Ok? && a.Stored? ==> store == old(store)[name := v])
        && (!(o.Ok? && a.RegionSlot?) ==> region == old(region))
        && (!(o.Ok? && a.TooltipSlot?) ==> tooltip == old(tooltip))
        && (!(o.Ok? && a.EnabledSlot?) ==> enabled == old(enabled))
        && (!(o.Ok? && a.InErrorSlot?) ==> inError == old(inError))
        && (!(o.Ok? && a.ErrorMessageSlot?) ==> errorMessage == old(errorMessage))
        && (!(o.Ok? && a.Stored?) ==> store == old(store))
      ensures o.Fail? ==> region == old(region) && tooltip == old(tooltip) && enabled == old(enabled)
                          && inError == old(inError) && errorMessage == old(errorMessage)
                          && store == old(store) && log == old(log)
    {
      var cache := PropertyInfoCache();
      RegistryKeys(properties);
      if name !in cache.entries {
        return Fail(NotFound(name));
      }
      RegistryLastWins(properties, name);
      var info := cache.entries[name];
      o := Write(name, info.accessor, v);
    }

    /** Whether the property behind accessor `a` has a setter that takes `v`: reflection
        reaches private setters too, and hands a value-typed property its default for null. */
    static predicate Writable(a: Accessor, v: Value) {
      match a
      case RegionSlot => v.RegionValue? || v.Null?
      case TooltipSlot => v.Str? || v.Null?
      case EnabledSlot => v.Bool? || v.Null?
      case InErrorSlot => v.Bool? || v.Null?
      case ErrorMessageSlot => v.Str? || v.Null?
      case Stored(setter) => setter
    }

    /** What the property reads after `v` is written: null becomes `false` in a Boolean property
        and 0 in `Region`. */
    static function Converted(a: Accessor, v: Value): Value {
      if !v.Null? then v
      else match a
        case RegionSlot => RegionValue(Unnumbered)
        case EnabledSlot => Bool(false)
        case InErrorSlot => Bool(false)
        case _ => Null
    }

    /** The notification of a write: the setters of Enabled, InError and ErrorMessage announce
        a change of what the property reads; the other setters announce nothing. */
    static function WriteNotes(a: Accessor, o: Outcome, before: Value, after: Value): seq<Event> {
      if o.Fail? then []
      else match a
        case EnabledSlot => ChangeNote(before != after, "Enabled")
        case InErrorSlot => ChangeNote(before != after, "InError")
        case ErrorMessageSlot => ChangeNote(before != after, "ErrorMessage")
        case _ => []
    }

    /** The setter behind accessor `a`: afterwards `a` reads `v` (converted for null) and no
        other property has changed. A missing setter, or a value of the wrong kind for one of
        Control's own properties, is an argument error that changes nothing; a property the
        concrete type declares takes any value its setter is given. */
    method Write(name: string, a: Accessor, v: Value) returns (o: Outcome)
      modifies this`region, this`tooltip, this`enabled, this`inError, this`errorMessage, this`store, this`log
      ensures o.Ok? <==> Writable(a, v)
      ensures o.Ok? ==> Read(name, a) == Converted(a, v)
      ensures log == old(log) + WriteNotes(a, o, old(Read(name, a)), Read(name, a))
      ensures o.Ok? && a.Stored? ==> store == old(store)[name := v]
      ensures !(o.Ok? && a.RegionSlot?) ==> region == old(region)
      ensures !(o.Ok? && a.TooltipSlot?) ==> tooltip == old(tooltip)
      ensures !(o.Ok? && a.EnabledSlot?) ==> enabled == old(enabled)
      ensures !(o.Ok? && a.InErrorSlot?) ==> inError == old(inError)
      ensures !(o.Ok? && a.ErrorMessageSlot?) ==> errorMessage == old(errorMessage)
      ensures !(o.Ok? && a.Stored?) ==> store == old(store)
    {
      match a {
        case RegionSlot =>
          if v.RegionValue? {
            region := v.region;
            o := Ok;
          } else if v.Null? {
            region := Unnumbered;
            o := Ok;
          } else {
            o := Fail(ArgumentError("Object type cannot be converted to target type."));
          }
        case TooltipSlot =>
          if v.Str? {
            tooltip := Some(v.s);
            o := Ok;
          } else if v.Null? {
            tooltip := None;
            o := Ok;
          } else {
            o := Fail(ArgumentError("Object type cannot be converted to target type."));
          }
        case EnabledSlot =>
          if v.Bool? || v.Null? {
            SetEnabled(v.Bool? && v.b);
            o := Ok;
          } else {
            o := Fail(ArgumentError("Object type cannot be converted to target type."));
          }
        case InErrorSlot =>
          if v.Bool? || v.Null? {
            SetInError(v.Bool? && v.b);
            o := Ok;
          } else {
            o := Fail(ArgumentError("Object type cannot be converted to target type."));
          }
        case ErrorMessageSlot =>
          if v.Str? {
            SetErrorMessage(Some(v.s));
            o := Ok;
          } else if v.Null? {
            SetErrorMessage(None);
            o := Ok;
          } else {
            o := Fail(ArgumentError("Object type cannot be converted to target type."));
          }
        case Stored(setter) =>
          if setter {
            store := store[name := v];
            o := Ok;
          } else {
            o := Fail(ArgumentError("Property set method not found."));
          }
      }
    }

    /** `Controls`: a fresh snapshot of the controls the registered properties hold. */
    method Controls() returns (controls: seq<Guid>)
      requires Valid()
      modifies this`propertyCache
      ensures Valid() && propertyCache == Some(BuildRegistry(properties))
      ensures controls == Dedup(Flatten(PropertyValues(PropertyNames())))
    {
      var cache := PropertyInfoCache();
      controls := CollectControls(PropertyValues(cache.names));
    }

    /** The values of the given registered names, in order. */
    function PropertyValues(names: seq<string>): (values: seq<Value>)
      reads this
      ensures |values| == |names|
    {
      seq(|names|, i requires 0 <= i < |names| reads this =>
        match GetPropertyValue(names[i]) case Success(v) => v case Failure(_) => Null)
    }

    // ----- identity

    /** `Equals(Control)`: equal exactly when the IDs are. */
    predicate EqualsControl(other: Control?)
      reads {}
    {
      other != null && id == other.id
    }

    /** `Equals(object)`: false for null and for anything that is not a control. */
    predicate Equals(other: Reference)
      reads {}
    {
      match other
      case NullRef => false
      case OtherRef => false
      case ControlRefTo(otherId) => id == otherId
    }

    function GetHashCode(): bv32
      reads {}
    {
      GuidHash(id)
    }

    /** `Control.RefreshCommand.Run`: the gate drops for the refresh and is raised again. */
    method RunRefresh()
      modifies refresh
      ensures refresh.canExecute
    {
      refresh.canExecute := false;
      RefreshControl();
      refresh.canExecute := true;
    }

    /** The base refresh hook does nothing. */
    method RefreshControl()
    {
    }
  }

  /** Get then set round-trips: each of the base control's own properties takes back the value
      it reads, which then reads the same and is announced by no notification; a stored
      property does so exactly when it has a setter. */
  lemma ReadWritesBack(c: Control, name: string, a: Accessor)
    ensures Control.Writable(a, c.Read(name, a)) <==> !(a.Stored? && !a.hasSetter)
    ensures Control.Converted(a, c.Read(name, a)) == c.Read(name, a)
    ensures Control.WriteNotes(a, Ok, c.Read(name, a), c.Read(name, a)) == []
  {
  }

  /** Control equality is an equivalence that depends on the IDs only, and equal controls
      hash alike. */
  lemma EqualityIsByIdentity(x: Control, y: Control, z: Control)
    ensures x.EqualsControl(x)
    ensures x.EqualsControl(y) <==> y.EqualsControl(x)
    ensures x.EqualsControl(y) && y.EqualsControl(z) ==> x.EqualsControl(z)
    ensures x.EqualsControl(y) <==> x.Equals(ControlRefTo(y.id))
    ensures x.EqualsControl(y) ==> x.GetHashCode() == y.GetHashCode()
    ensures !x.Equals(NullRef) && !x.Equals(OtherRef) && !x.EqualsControl(null)
  {
  }
}

=== FILE: filters.dfy ===
/** The search-filter dialog (Aras.ViewModel/Dialogs/Filters.cs): a table of typed property
    controls, one per property type, from which the dialog builds a query condition, and which
    its Clear command empties. */
module FilterDialogs {
  import opened Wrappers
  import opened Backend
  import opened Seqs

  const NoColumns: int := 3
  const RowHeight: int := 60
  const ToolbarHeight: int := 50
  const DialogWidth: int := 600

  // ---------------------------------------------------------------------------------------
  // Conditions and fields

  /** The value a condition compares against. `Number` holds the decimal and floating-point
      values, `Whole` the integers. */
  datatype Operand = Text(s: string) | Whole(i: int) | Number(r: real)

  /** `Model.Condition`: everything, an equality, a pattern match, or a conjunction. */
  datatype Condition =
    | All
    | Eq(property: string, operand: Operand)
    | Like(property: string, pattern: string)
    | And(terms: seq<Condition>)

  /** A comparison on one property. */
  predicate Leaf(c: Condition) {
    c.Eq? || c.Like?
  }

  /** A property control of the filter table, by the name of its runtime type, with the name
      of the property it filters and its current value. `UnknownField` is any other type. */
  datatype Field =
    | BooleanField(name: string, flag: Option<bool>)
    | DateField(name: string, date: Option<string>)
    | DecimalField(name: string, decimalValue: Option<real>)
    | FloatField(name: string, floatValue: Option<real>)
    | IntegerField(name: string, intValue: Option<int>)
    | ItemField(name: string, item: Option<Item>)
    | ListField(name: string, text: Option<string>)
    | SequenceField(name: string, text: Option<string>)
    | StringField(name: string, text: Option<string>)
    | TextField(name: string, text: Option<string>)
    | FederatedField(name: string, text: Option<string>)
    | UnknownField(typeName: string)

  /** `!String.IsNullOrEmpty(s)`. */
  predicate Filled(s: Option<string>) {
    s.Some? && s.value != ""
  }

  /** Whether a field holds a value the filter uses: a set Boolean, number or item, a string
      that is neither null nor empty. A date never counts. */
  predicate HasValue(f: Field) {
    match f
    case BooleanField(_, b) => b.Some?
    case DateField(_, _) => false
    case DecimalField(_, d) => d.Some?
    case FloatField(_, x) => x.Some?
    case IntegerField(_, i) => i.Some?
    case ItemField(_, it) => it.Some?
    case UnknownField(_) => false
    case _ => Filled(f.text)
  }

  /** The string kinds matched by pattern rather than by equality. */
  predicate MatchedByPattern(f: Field) {
    f.SequenceField? || f.StringField? || f.TextField? || f.FederatedField?
  }

  /** The error both loops throw for a field of an unknown type. */
  function NotImplemented(f: Field): Error
    requires f.UnknownField?
  {
    ArgumentError("Property Type not implemented: " + f.typeName)
  }

  /** The switch in `Condition()`: what one field contributes, if anything. */
  function FieldCondition(f: Field): Result<Option<Condition>> {
    match f
    case BooleanField(n, b) => Success(if b.None? then None else Some(Eq(n, Text(if b.value then "1" else "0"))))
    case DateField(_, _) => Success(None)
    case DecimalField(n, d) => Success(if d.None? then None else Some(Eq(n, Number(d.value))))
    case FloatField(n, x) => Success(if x.None? then None else Some(Eq(n, Number(x.value))))
    case IntegerField(n, i) => Success(if i.None? then None else Some(Eq(n, Whole(i.value))))
    case ItemField(n, it) => Success(if it.None? then None else Some(Eq(n, Text(it.value.id))))
    case ListField(n, s) => Success(if Filled(s) then Some(Eq(n, Text(s.value))) else None)
    case SequenceField(n, s) => Success(if Filled(s) then Some(Like(n, s.value)) else None)
    case StringField(n, s) => Success(if Filled(s) then Some(Like(n, s.value)) else None)
    case TextField(n, s) => Success(if Filled(s) then Some(Like(n, s.value)) else None)
    case FederatedField(n, s) => Success(if Filled(s) then Some(Like(n, s.value)) else None)
    case UnknownField(_) => Failure(NotImplemented(f))
  }

  /** A field fails exactly when its type is unknown, and contributes exactly when it holds a
      value the filter uses; the contribution is a comparison on the field's own property, by
      pattern for the free-text kinds and by equality otherwise. */
  lemma FieldConditionMeaning(f: Field)
    ensures FieldCondition(f).Failure? <==> f.UnknownField?
    ensures FieldCondition(f).Failure? ==> FieldCondition(f).error == NotImplemented(f)
    ensures FieldCondition(f).Success? ==> (FieldCondition(f).value.Some? <==> HasValue(f))
    ensures FieldCondition(f).Success? && FieldCondition(f).value.Some? ==>
      var c := FieldCondition(f).value.value;
      && Leaf(c) && c.property == f.name
      && (c.Like? <==> MatchedByPattern(f))
      && (f.BooleanField? ==> c.operand == Text(if f.flag.value then "1" else "0"))
      && (f.ItemField? ==> c.operand == Text(f.item.value.id))
  {
  }

  // ---------------------------------------------------------------------------------------
  // The condition of a whole table

  /** The contributions of the fields in table order, or the error of the first field of
      unknown type. */
  function Contributions(fs: seq<Field>): Result<seq<Condition>>
    decreases |fs|
  {
    if |fs| == 0 then Success([])
    else
      match Contributions(fs[..|fs| - 1])
      case Failure(e) => Failure(e)
      case Success(cs) =>
        match FieldCondition(fs[|fs| - 1])
        case Failure(e) => Failure(e)
        case Success(None) => Success(cs)
        case Success(Some(c)) => Success(cs + [c])
  }

  /** No contribution is everything, one is itself, several are one conjunction. */
  function Combine(cs: seq<Condition>): Condition {
    if |cs| == 0 then All else if |cs| == 1 then cs[0] else And(cs)
  }

  function ConditionOf(fs: seq<Field>): Result<Condition> {
    match Contributions(fs)
    case Failure(e) => Failure(e)
    case Success(cs) => Success(Combine(cs))
  }

  /** The contributions of two runs of fields, one after the other. */
  function Then(x: Result<seq<Condition>>, y: Result<seq<Condition>>): Result<seq<Condition>> {
    match x
    case Failure(e) => Failure(e)
    case Success(a) =>
      match y
      case Failure(e) => Failure(e)
      case Success(b) => Success(a + b)
  }

  /** The contributions of a table are those of its first part followed by those of the rest:
      they keep table order, and the first failure wins. */
  lemma {:induction false} ContributionsAppend(p: seq<Field>, q: seq<Field>)
    ensures Contributions(p + q) == Then(Contributions(p), Contributions(q))
    decreases |q|
  {
    if |q| == 0 {
      assert p + q == p;
      if Contributions(p).Success? {
        assert Contributions(p).value + [] == Contributions(p).value;
      }
    } else {
      var q', x := q[..|q| - 1], q[|q| - 1];
      ContributionsAppend(p, q');
      assert (p + q)[..|p + q| - 1] == p + q';
      assert (p + q)[|p + q| - 1] == x;
      if Contributions(p).Success? && Contributions(q').Success? && FieldCondition(x).Success? && FieldCondition(x).value.Some? {
        var a, b, c := Contributions(p).value, Contributions(q').value, FieldCondition(x).value.value;
        assert Contributions(p + q) == Success(a + b + [c]);
        assert Contributions(q) == Success(b + [c]);
        assert a + b + [c] == a + (b + [c]);
      }
    }
  }

  /** Every contribution is a comparison. */
  lemma {:induction false} ContributionsAreLeaves(fs: seq<Field>)
    ensures Contributions(fs).Success? ==> forall c | c in Contributions(fs).value :: Leaf(c)
    decreases |fs|
  {
    if |fs| > 0 {
      ContributionsAreLeaves(fs[..|fs| - 1]);
      FieldConditionMeaning(fs[|fs| - 1]);
    }
  }

  /** The position of the first field of unknown type, or the table's length if none. */
  function FirstUnknown(fs: seq<Field>): (k: nat)
    ensures k <= |fs|
    ensures forall j | 0 <= j < k :: !fs[j].UnknownField?
    ensures k < |fs| ==> fs[k].UnknownField?
    decreases |fs|
  {
    if |fs| == 0 then 0
    else if fs[0].UnknownField? then 0
    else 1 + FirstUnknown(fs[1..])
  }

  lemma FirstUnknownUnique(fs: seq<Field>, k: nat)
    requires k <= |fs|
    requires forall j | 0 <= j < k :: !fs[j].UnknownField?
    requires k < |fs| ==> fs[k].UnknownField?
    ensures FirstUnknown(fs) == k
  {
  }

  /** Building the condition fails exactly when some field has an unknown type, with the error
      of the first such field. */
  lemma {:induction false} ConditionFailsOnUnknown(fs: seq<Field>)
    ensures ConditionOf(fs).Failure? <==> FirstUnknown(fs) < |fs|
    ensures ConditionOf(fs).Failure? ==> ConditionOf(fs).error == NotImplemented(fs[FirstUnknown(fs)])
    decreases |fs|
  {
    if |fs| > 0 {
      var p := fs[..|fs| - 1];
      ConditionFailsOnUnknown(p);
      FieldConditionMeaning(fs[|fs| - 1]);
      var k := FirstUnknown(p);
      assert forall j | 0 <= j < |p| :: fs[j] == p[j];
      if k < |p| {
        FirstUnknownUnique(fs, k);
      } else if fs[|p|].UnknownField? {
        FirstUnknownUnique(fs, |p|);
      } else {
        FirstUnknownUnique(fs, |fs|);
      }
    }
  }

  /** With every field of a known type: the condition is `All` exactly when no field holds a
      value the filter uses. */
  lemma ConditionAllIffNoValue(fs: seq<Field>)
    requires FirstUnknown(fs) == |fs|
    ensures ConditionOf(fs).Success?
    ensures Contributions(fs).Success?
    ensures |Contributions(fs).value| == 0 <==> forall i | 0 <= i < |fs| :: !HasValue(fs[i])
    ensures ConditionOf(fs) == Success(All) <==> forall i | 0 <= i < |fs| :: !HasValue(fs[i])
  {
    ConditionFailsOnUnknown(fs);
    EmptyIffNoValue(fs);
    ContributionsAreLeaves(fs);
    if |Contributions(fs).value| > 0 {
      assert Contributions(fs).value[0] in Contributions(fs).value;
    }
  }

  /** A table that yields contributions yields none exactly when no field holds a value. */
  lemma {:induction false} EmptyIffNoValue(fs: seq<Field>)
    requires Contributions(fs).Success?
    ensures |Contributions(fs).value| == 0 <==> forall i | 0 <= i < |fs| :: !HasValue(fs[i])
    decreases |fs|
  {
    if |fs| > 0 {
      var p := fs[..|fs| - 1];
      EmptyIffNoValue(p);
      FieldConditionMeaning(fs[|fs| - 1]);
      assert forall i | 0 <= i < |p| :: p[i] == fs[i];
    }
  }

  /** With one field holding a value and no other, the condition is that field's own
      comparison. */
  lemma ConditionOfSingle(fs: seq<Field>, k: nat)
    requires FirstUnknown(fs) == |fs| && k < |fs| && HasValue(fs[k])
    requires forall i | 0 <= i < |fs| && i != k :: !HasValue(fs[i])
    ensures ConditionOf(fs) == Success(FieldCondition(fs[k]).value.value)
  {
    ConditionFailsOnUnknown(fs);
    ContributionAt(fs, k);
    var p, q := fs[..k], fs[k + 1..];
    assert forall t | 0 <= t < |p| :: !HasValue(p[t]) by {
      forall t | 0 <= t < |p| ensures !HasValue(p[t]) {
        assert p[t] == fs[t];
      }
    }
    assert forall t | 0 <= t < |q| :: !HasValue(q[t]) by {
      forall t | 0 <= t < |q| ensures !HasValue(q[t]) {
        assert q[t] == fs[k + 1 + t];
      }
    }
    EmptyIffNoValue(p);
    EmptyIffNoValue(q);
  }

  /** When a table yields contributions, they are those before a field holding a value, then
      that field's comparison, then those after it. */
  lemma ContributionAt(fs: seq<Field>, k: nat)
    requires Contributions(fs).Success? && k < |fs| && HasValue(fs[k])
    ensures Contributions(fs[..k]).Success? && Contributions(fs[k + 1..]).Success?
    ensures Contributions(fs).value
      == Contributions(fs[..k]).value + [FieldCondition(fs[k]).value.value] + Contributions(fs[k + 1..]).value
  {
    var p, x, q := fs[..k], fs[k], fs[k + 1..];
    SplitAt(fs, k);
    ContributionOne(x);
    ContributionsAppend(p, [x]);
    ContributionsAppend(p + [x], q);
    ThenParts(Contributions(p + [x]), Contributions(q));
    ThenParts(Contributions(p), Contributions([x]));
  }

  lemma ThenParts(x: Result<seq<Condition>>, y: Result<seq<Condition>>)
    ensures Then(x, y).Success? <==> x.Success? && y.Success?
    ensures Then(x, y).Success? ==> Then(x, y).value == x.value + y.value
  {
  }

  /** A single field holding a value contributes its comparison. */
  lemma ContributionOne(x: Field)
    requires HasValue(x)
    ensures Contributions([x]) == Success([FieldCondition(x).value.value])
  {
    assert [x][..0] == [];
    FieldConditionMeaning(x);
    var c := FieldCondition(x).value.value;
    assert Contributions([x][..0]) == Success([]);
    assert [] + [c] == [c];
  }

  /** With two fields holding values, the condition is one conjunction whose terms are the
      contributions in table order, each a comparison, the first field's before the second's. */
  lemma ConditionOfSeveral(fs: seq<Field>, i: nat, j: nat)
    requires FirstUnknown(fs) == |fs| && i < j < |fs| && HasValue(fs[i]) && HasValue(fs[j])
    ensures Contributions(fs).Success?
    ensures var cs := Contributions(fs).value;
      && ConditionOf(fs) == Success(And(cs))
      && (forall c | c in cs :: Leaf(c))
      && exists a, b | 0 <= a < b < |cs| ::
           cs[a] == FieldCondition(fs[i]).value.value && cs[b] == FieldCondition(fs[j]).value.value
  {
    ConditionFailsOnUnknown(fs);
    var a, b := ContributionsOfTwo(fs, i, j);
    ContributionsAreLeaves(fs);
  }

  /** Where the comparisons of two fields holding values sit among the contributions. */
  lemma ContributionsOfTwo(fs: seq<Field>, i: nat, j: nat) returns (a: nat, b: nat)
    requires Contributions(fs).Success? && i < j < |fs| && HasValue(fs[i]) && HasValue(fs[j])
    ensures a < b < |Contributions(fs).value|
    ensures Contributions(fs).value[a] == FieldCondition(fs[i]).value.value
    ensures Contributions(fs).value[b] == FieldCondition(fs[j]).value.value
  {
    ContributionAt(fs, i);
    var r := fs[i + 1..];
    assert r[j - (i + 1)] == fs[j];
    ContributionAt(r, j - (i + 1));
    var p := Contributions(fs[..i]).value;
    var m := Contributions(r[..j - (i + 1)]).value;
    var ci, cj := FieldCondition(fs[i]).value.value, FieldCondition(fs[j]).value.value;
    Positions(Contributions(fs).value, p, ci, m, cj, Contributions(r[j - i..]).value);
    a, b := |p|, |p| + 1 + |m|;
  }

  lemma Positions(cs: seq<Condition>, a: seq<Condition>, ci: Condition, m: seq<Condition>, cj: Condition, z: seq<Condition>)
    requires cs == a + [ci] + (m + [cj] + z)
    ensures |cs| >= 2 && cs[|a|] == ci && cs[|a| + 1 + |m|] == cj
  {
  }

  // ---------------------------------------------------------------------------------------
  // Clearing

  /** The field with its value set to null; an unknown field is left as it is. */
  function ClearField(f: Field): (r: Field)
    ensures !HasValue(r)
    ensures r.UnknownField? <==> f.UnknownField?
    ensures !f.UnknownField? ==> r.name == f.name && FieldCondition(r) == Success(None)
  {
    match f
    case BooleanField(n, _) => BooleanField(n, None)
    case DateField(n, _) => DateField(n, None)
    case DecimalField(n, _) => DecimalField(n, None)
    case FloatField(n, _) => FloatField(n, None)
    case IntegerField(n, _) => IntegerField(n, None)
    case ItemField(n, _) => ItemField(n, None)
    case ListField(n, _) => ListField(n, None)
    case SequenceField(n, _) => SequenceField(n, None)
    case StringField(n, _) => StringField(n, None)
    case TextField(n, _) => TextField(n, None)
    case FederatedField(n, _) => FederatedField(n, None)
    case UnknownField(_) => f
  }

  function ClearAll(fs: seq<Field>): (r: seq<Field>)
    ensures |r| == |fs| && forall i | 0 <= i < |fs| :: r[i] == ClearField(fs[i])
  {
    seq(|fs|, i requires 0 <= i < |fs| => ClearField(fs[i]))
  }

  /** Clearing one more field extends the cleared prefix by one. */
  lemma ClearStep(fs: seq<Field>, i: nat)
    requires i < |fs|
    ensures (ClearAll(fs[..i]) + fs[i..])[i := ClearField(fs[i])] == ClearAll(fs[..i + 1]) + fs[i + 1..]
  {
    var a, b := (ClearAll(fs[..i]) + fs[i..])[i := ClearField(fs[i])], ClearAll(fs[..i + 1]) + fs[i + 1..];
    assert |a| == |b|;
    forall t | 0 <= t < |a|
      ensures a[t] == b[t]
    {
      if t < i {
        assert fs[..i][t] == fs[..i + 1][t];
      } else if t > i {
        assert fs[i..][t - i] == fs[i + 1..][t - i - 1];
      }
    }
  }

  /** After a complete Clear the condition is `All`. */
  lemma ClearThenConditionIsAll(fs: seq<Field>)
    requires FirstUnknown(fs) == |fs|
    ensures ConditionOf(ClearAll(fs)) == Success(All)
  {
    var cleared := ClearAll(fs);
    FirstUnknownUnique(cleared, |cleared|);
    ConditionAllIffNoValue(cleared);
  }

  /** A Clear that stopped at an unknown field leaves that field in place, so the condition
      still fails with the same error. */
  lemma ClearStopsWhereConditionFails(fs: seq<Field>)
    requires FirstUnknown(fs) < |fs|
    ensures var k := FirstUnknown(fs);
      ConditionOf(ClearAll(fs[..k]) + fs[k..]) == Failure(NotImplemented(fs[k]))
  {
    var k := FirstUnknown(fs);
    var after := ClearAll(fs[..k]) + fs[k..];
    assert after[k] == fs[k];
    forall j | 0 <= j < k
      ensures !after[j].UnknownField?
    {
      assert after[j] == ClearField(fs[..k][j]);
      assert fs[..k][j] == fs[j];
    }
    FirstUnknownUnique(after, k);
    ConditionFailsOnUnknown(after);
  }

  /** The dialog height: a row of 60 for every started group of three columns, plus the 50 of
      the toolbar. */
  function DialogHeight(n: nat): (h: int)
    ensures (h - ToolbarHeight) % RowHeight == 0 && h >= ToolbarHeight
    ensures var rows := (h - ToolbarHeight) / RowHeight;
      NoColumns * rows >= n && (rows == 0 || NoColumns * (rows - 1) < n)
  {
    (n / NoColumns + (if n % NoColumns > 0 then 1 else 0)) * RowHeight + ToolbarHeight
  }

  // ---------------------------------------------------------------------------------------
  // The dialog

  class Filters {
    /** The property controls of the table, in table order. */
    var fields: seq<Field>
    const width: int
    const height: int
    /** The dialog's `Open` flag. */
    var open: bool
    /** `CanExecute` of the ApplyFilter and ClearFilter commands. */
    var applyCanExecute: bool
    var clearCanExecute: bool

    /** `new Filters(parent, propertyTypes)`, given the property controls the session creates,
        one per property type, and the `Open` flag the dialog starts with. */
    constructor (created: seq<Field>, isOpen: bool)
      ensures fields == created && open == isOpen
      ensures width == DialogWidth && height == DialogHeight(|created|)
      ensures applyCanExecute && clearCanExecute
    {
      fields := created;
      open := isOpen;
      applyCanExecute := true;
      clearCanExecute := true;
      width := DialogWidth;
      height := DialogHeight(|created|);
    }

    /** `Condition()`: fold the fields into one condition, appending to a conjunction once
        there are two contributions. */
    method Condition() returns (r: Result<Condition>)
      ensures r == ConditionOf(fields)
    {
      var ret: Option<Condition> := None;
      ghost var cs: seq<Condition> := [];
      var i := 0;
      while i < |fields|
        invariant 0 <= i <= |fields|
        invariant Contributions(fields[..i]) == Success(cs)
        invariant forall c | c in cs :: Leaf(c)
        invariant ret == if |cs| == 0 then None else Some(Combine(cs))
      {
        assert fields[..i + 1][..i] == fields[..i] && fields[..i + 1][i] == fields[i];
        if |cs| == 1 {
          assert cs[0] in cs;
        }
        var condition := FieldCondition(fields[i]);
        if condition.Failure? {
          ContributionsAppend(fields[..i + 1], fields[i + 1..]);
          assert fields[..i + 1] + fields[i + 1..] == fields;
          return Failure(condition.error);
        }
        FieldConditionMeaning(fields[i]);
        if condition.value.Some? {
          var c := condition.value.value;
          if ret.None? {
            assert cs + [c] == [c];
            ret := Some(c);
          } else if ret.value.And? {
            assert |cs| >= 2 && ret.value.terms == cs;
            ret := Some(And(ret.value.terms + [c]));
          } else {
            assert |cs| == 1 && [ret.value, c] == cs + [c];
            ret := Some(And([ret.value, c]));
          }
          cs := cs + [c];
        }
        i := i + 1;
      }
      assert fields[..i] == fields;
      if ret.None? {
        ret := Some(All);
      }
      r := Success(ret.value);
    }

    /** `Clear()`: null every field in table order; a field of unknown type throws, leaving
        the fields before it cleared and the rest as they were. */
    method Clear() returns (o: Outcome)
      modifies this`fields
      ensures var k := FirstUnknown(old(fields));
        && fields == ClearAll(old(fields)[..k]) + old(fields)[k..]
        && (o.Ok? <==> k == |old(fields)|)
        && (o.Fail? ==> o.error == NotImplemented(old(fields)[k]))
    {
      var i := 0;
      while i < |fields|
        invariant 0 <= i <= |fields| && |fields| == |old(fields)|
        invariant forall j | 0 <= j < i :: !old(fields)[j].UnknownField?
        invariant fields == ClearAll(old(fields)[..i]) + old(fields)[i..]
      {
        if fields[i].UnknownField? {
          FirstUnknownUnique(old(fields), i);
          return Fail(ArgumentError("Property Type not implemented: " + fields[i].typeName));
        }
        ClearStep(old(fields), i);
        fields := fields[i := ClearField(fields[i])];
        i := i + 1;
      }
      FirstUnknownUnique(old(fields), i);
      assert old(fields)[i..] == [] && old(fields)[..i] == old(fields);
      o := Ok;
    }

    /** `FilterCommand.Run`: close the dialog and stay enabled. */
    method RunApplyFilter()
      modifies this`open, this`applyCanExecute
      ensures !open && applyCanExecute
    {
      open := false;
      applyCanExecute := true;
    }

    /** `ClearCommand.Run`: clear the fields, then close the dialog and stay enabled; when the
        clear throws, the dialog stays as it was. */
    method RunClearFilter() returns (o: Outcome)
      modifies this`fields, this`open, this`clearCanExecute
      ensures var k := FirstUnknown(old(fields));
        && fields == ClearAll(old(fields)[..k]) + old(fields)[k..]
        && (o.Ok? <==> k == |old(fields)|)
      ensures o.Ok? ==> !open && clearCanExecute && ConditionOf(fields) == Success(All)
      ensures o.Fail? ==> open == old(open) && clearCanExecute == old(clearCanExecute)
    {
      o := Clear();
      if o.Ok? {
        assert old(fields)[..|old(fields)|] == old(fields) && old(fields)[|old(fields)|..] == [];
        assert fields == ClearAll(old(fields));
        ClearThenConditionIsAll(old(fields));
        open := false;
        clearCanExecute := true;
      }
    }
  }
}

=== FILE: list_value.dfy ===
/** `ListValue` (Aras.ViewModel/ListValue.cs): a control that mirrors one entry of a backend
    list, exposing the entry's "value" and "label" strings, which it keeps in step with its
    binding through the Binding setter's hooks. */
module ListValues {
  import opened Wrappers
  import opened Backend
  import opened Controls

  /** The two properties the control shows. */
  datatype Shown = Shown(value: Option<string>, labelText: Option<string>)

  /** What a list entry shows; nothing when unbound. */
  function Projection(binding: Option<Obj>): Shown {
    if binding.Some? && binding.value.ValueObj? then Shown(binding.value.value, binding.value.labelText)
    else Shown(None, None)
  }

  /** `CheckBinding`: null or a list entry. */
  predicate Accepts(candidate: Option<Obj>) {
    candidate.None? || candidate.value.ValueObj?
  }

  /** The notifications of assigning `next` through the two change-only setters, Value first. */
  function Assign(current: Shown, next: Shown): seq<Event> {
    ChangeNote(current.value != next.value, "Value") + ChangeNote(current.labelText != next.labelText, "Label")
  }

  /** `BeforeBindingChanged`: clear both properties if something is bound. */
  function BeforeHook(bound: Option<Obj>, current: Shown): Shown {
    if bound.Some? then Shown(None, None) else current
  }

  function BeforeEvents(bound: Option<Obj>, current: Shown): seq<Event> {
    Assign(current, BeforeHook(bound, current))
  }

  /** `AfterBindingChanged`, run with the new binding in place. */
  function AfterEvents(bound: Option<Obj>, current: Shown, candidate: Option<Obj>): seq<Event> {
    Assign(BeforeHook(bound, current), Projection(candidate))
  }

  /** Whatever the control showed before, an accepted rebinding leaves it showing exactly the
      new entry; and only "Value" and "Label" notifications come out of the hooks. */
  lemma HooksProjectBinding(bound: Option<Obj>, current: Shown, candidate: Option<Obj>)
    ensures var mid := BeforeHook(bound, current);
      && (bound.Some? ==> mid == Shown(None, None))
      && (bound.None? ==> mid == current)
    ensures forall e | e in BeforeEvents(bound, current) + AfterEvents(bound, current, candidate) ::
      e == Notified("Value") || e == Notified("Label")
  {
  }

  /** Switching between two bound entries that show the same value still reports "Value"
      twice: the before-hook clears it and the after-hook restores it. */
  lemma {:induction false} SwitchReportsValueTwice(old_: Obj, new_: Obj, v: string)
    requires old_.ValueObj? && new_.ValueObj? && old_ != new_
    requires old_.value == Some(v) && new_.value == Some(v)
    ensures var cur := Projection(Some(old_));
      var evs := BindingCycle(Some(old_), Some(new_), Accepts(Some(new_)),
                              BeforeEvents(Some(old_), cur), AfterEvents(Some(old_), cur, Some(new_)));
      multiset(evs)[Notified("Value")] == 2
  {
    var cur := Projection(Some(old_));
    var before := BeforeEvents(Some(old_), cur);
    var after := AfterEvents(Some(old_), cur, Some(new_));
    var v1 := Notified("Value");
    assert before == [v1] + ChangeNote(old_.labelText != None, "Label");
    assert after == [v1] + ChangeNote(new_.labelText != None, "Label");
    var evs := [Checked(Some(new_)), BeforeBinding(Some(old_))] + before + [AfterBinding(Some(new_))] + after + [Notified("Binding")];
    assert multiset(evs) == multiset([Checked(Some(new_)), BeforeBinding(Some(old_))]) + multiset(before)
      + multiset([AfterBinding(Some(new_))]) + multiset(after) + multiset([Notified("Binding")]);
    assert multiset(before)[v1] == 1 && multiset(after)[v1] == 1;
  }

  class ListValue {
    const control: Control
    var value: Option<string>
    var labelText: Option<string>

    function Shows(): Shown
      reads this
    {
      Shown(value, labelText)
    }

    /** Between assignments made directly to Value or Label, the control shows its binding. */
    ghost predicate InStep()
      reads this, control
    {
      Shows() == Projection(control.binding)
    }

    constructor (id: Guid)
      ensures fresh(control) && control.id == id && control.binding == None && control.log == []
      ensures value == None && labelText == None
      ensures InStep()
    {
      control := new Control(id, [], []);
      value := None;
      labelText := None;
    }

    method SetValue(v: Option<string>)
      modifies this`value, control`log
      ensures value == v
      ensures control.log == old(control.log) + ChangeNote(old(value) != v, "Value")
    {
      if value != v {
        value := v;
        control.log := control.log + [Notified("Value")];
      }
    }

    method SetLabel(v: Option<string>)
      modifies this`labelText, control`log
      ensures labelText == v
      ensures control.log == old(control.log) + ChangeNote(old(labelText) != v, "Label")
    {
      if labelText != v {
        labelText := v;
        control.log := control.log + [Notified("Label")];
      }
    }

    /** The Binding setter with ListValue's check and hooks. A candidate that is neither null
        nor a list entry throws from the check: nothing but the check has run. */
    method SetBinding(candidate: Option<Obj>) returns (o: Outcome)
      modifies this`value, this`labelText, control`binding, control`log
      ensures var acts := SetterActs(old(control.binding), candidate);
        && (o.Fail? <==> acts && !Accepts(candidate))
        && control.binding == BoundAfter(old(control.binding), candidate, Accepts(candidate))
        && control.log == old(control.log) + BindingCycle(old(control.binding), candidate, Accepts(candidate),
             BeforeEvents(old(control.binding), Shown(old(value), old(labelText))),
             AfterEvents(old(control.binding), Shown(old(value), old(labelText)), candidate))
        && (acts && Accepts(candidate) ==> InStep())
        && (!acts || !Accepts(candidate) ==> value == old(value) && labelText == old(labelText))
    {
      o := Ok;
      if control.binding.None? {
        if candidate.Some? {
          o := Cycle(candidate);
        }
      } else {
        if !(candidate.Some? && control.binding.value == candidate.value) {
          o := Cycle(candidate);
        }
      }
    }

    method Cycle(candidate: Option<Obj>) returns (o: Outcome)
      requires SetterActs(control.binding, candidate)
      modifies this`value, this`labelText, control`binding, control`log
      ensures o.Fail? <==> !Accepts(candidate)
      ensures control.binding == BoundAfter(old(control.binding), candidate, Accepts(candidate))
      ensures control.log == old(control.log) + BindingCycle(old(control.binding), candidate, Accepts(candidate),
                BeforeEvents(old(control.binding), old(Shows())), AfterEvents(old(control.binding), old(Shows()), candidate))
      ensures Accepts(candidate) ==> InStep()
      ensures !Accepts(candidate) ==> value == old(value) && labelText == old(labelText)
    {
      ghost var bound := control.binding;
      ghost var before := BeforeEvents(bound, Shows());
      ghost var after := AfterEvents(bound, Shows(), candidate);
      o := CheckBinding(candidate);
      if o.Ok? {
        ghost var log0 := control.log;
        Switch(candidate);
        AcceptedCycleLog(control.log, old(control.log), candidate, bound, before, after);
      }
    }

    /** The accepted part of the cycle: before-hook with the old binding in place, the
        assignment, after-hook with the new binding in place, and the "Binding" notification. */
    method Switch(candidate: Option<Obj>)
      modifies this`value, this`labelText, control`binding, control`log
      ensures control.binding == candidate
      ensures control.log == old(control.log) + [BeforeBinding(old(control.binding))] + BeforeEvents(old(control.binding), old(Shows()))
        + [AfterBinding(candidate)] + AfterEvents(old(control.binding), old(Shows()), candidate) + [Notified("Binding")]
      ensures InStep()
    {
      ghost var log0 := control.log;
      ghost var bound := control.binding;
      ghost var cur := Shows();
      control.log := control.log + [BeforeBinding(control.binding)];
      BeforeBindingChanged();
      ghost var log1 := control.log;
      assert log1 == log0 + [BeforeBinding(bound)] + BeforeEvents(bound, cur);
      control.binding := candidate;
      control.log := control.log + [AfterBinding(control.binding)];
      AfterBindingChanged();
      assert control.log == log1 + [AfterBinding(candidate)] + AfterEvents(bound, cur, candidate);
      control.log := control.log + [Notified("Binding")];
    }

    /** `CheckBinding`: anything but null or a list entry is an argument error. */
    method CheckBinding(candidate: Option<Obj>) returns (o: Outcome)
      modifies control`log
      ensures o.Fail? <==> !Accepts(candidate)
      ensures control.log == old(control.log) + [Checked(candidate)]
    {
      control.log := control.log + [Checked(candidate)];
      if Accepts(candidate) {
        o := Ok;
      } else {
        o := Fail(ArgumentError("Binding must be of type Aras.Model.ListValue"));
      }
    }

    /** `BeforeBindingChanged`: clear both properties while the old binding is in place. */
    method BeforeBindingChanged()
      modifies this`value, this`labelText, control`log
      ensures Shows() == BeforeHook(control.binding, old(Shows()))
      ensures control.log == old(control.log) + BeforeEvents(control.binding, old(Shows()))
    {
      if control.binding.Some? {
        SetValue(None);
        SetLabel(None);
      }
    }

    /** `AfterBindingChanged`: show the newly bound entry, or nothing. */
    method AfterBindingChanged()
      modifies this`value, this`labelText, control`log
      ensures Shows() == Projection(control.binding)
      ensures control.log == old(control.log) + Assign(old(Shows()), Projection(control.binding))
    {
      var shown := Projection(control.binding);
      SetValue(shown.value);
      SetLabel(shown.labelText);
    }

    /** `ToString`: Value, whatever was last assigned to it; in step with the binding, that is
        the bound entry's value. */
    function ToString(): (r: Option<string>)
      reads this, control
      ensures r == value
      ensures InStep() ==> r == Projection(control.binding).value
    {
      value
    }
  }
}

=== FILE: relationship_tree.dfy ===
/** `RelationshipTree` (Aras.ViewModel/RelationshipTree.cs): a tree of items linked by
    relationships, edited through commands. The tree keeps a selected node, a lazily opened
    backend transaction, a copy/paste buffer, a ShowSearch flag and a cache of node identities;
    after each edit it recomputes which commands are enabled.

    Nodes live in a table and are named by their index. Backend work (transactions, item
    updates, relationship deletes, node refreshes) is recorded as a log of calls. */
module RelationshipTrees {
  import opened Wrappers
  import opened Backend
  import opened Seqs
  import opened Controls

  // ---------------------------------------------------------------------------------------
  // The node table

  /** A `RelationshipTreeNode`: its parent, its children in display order, the item it shows,
      and the relationship that links it under its parent (none for the root). */
  datatype Node = Node(parent: Option<nat>, children: seq<nat>, item: Item, relationship: Option<Relationship>)

  /** Every parent comes before its child in the table (so the hierarchy has no cycle), and a
      node with a parent has the relationship that links them. */
  predicate ParentsBefore(nodes: seq<Node>) {
    forall i | 0 <= i < |nodes| && nodes[i].parent.Some? :: nodes[i].parent.value < i && nodes[i].relationship.Some?
  }

  /** Node `i`, if it has a parent, is listed among that parent's children. */
  predicate ListedByParent(nodes: seq<Node>, i: int) {
    0 <= i < |nodes| && nodes[i].parent.Some? && nodes[i].parent.value < |nodes| ==>
      i in nodes[nodes[i].parent.value].children
  }

  /** Whatever node `i` lists as a child is a node of the table whose parent is `i`. */
  predicate ChildListed(nodes: seq<Node>, i: int, c: nat) {
    0 <= i < |nodes| && c in nodes[i].children ==> c < |nodes| && nodes[c].parent == Some(i)
  }

  ghost predicate WellFormed(nodes: seq<Node>) {
    && ParentsBefore(nodes)
    && (forall i :: ListedByParent(nodes, i))
    && (forall i, c :: ChildListed(nodes, i, c))
  }

  lemma ParentLinked(nodes: seq<Node>, i: nat)
    requires WellFormed(nodes) && i < |nodes| && nodes[i].parent.Some?
    ensures nodes[i].parent.value < i && i in nodes[nodes[i].parent.value].children && nodes[i].relationship.Some?
  {
    assert ListedByParent(nodes, i);
  }

  lemma ChildLinked(nodes: seq<Node>, i: nat, c: nat)
    requires WellFormed(nodes) && i < |nodes| && c in nodes[i].children
    ensures c < |nodes| && nodes[c].parent == Some(i)
  {
    assert ChildListed(nodes, i, c);
  }

  predicate Within(nodes: seq<Node>, n: Option<nat>) {
    n.Some? ==> n.value < |nodes|
  }

  /** The key `AddNodeToCache` files a node under: its item's ID for the root, its
      relationship's ID otherwise. */
  function CacheKey(node: Node): string {
    match node.relationship
    case None => node.item.id
    case Some(r) => r.id
  }

  /** Every cached ID leads to a node filed under that ID. */
  predicate CacheValid(cache: map<string, nat>, nodes: seq<Node>) {
    forall k | k in cache :: cache[k] < |nodes| && CacheKey(nodes[cache[k]]) == k
  }

  // ---------------------------------------------------------------------------------------
  // Indent's new parent: the sibling just before the selection

  /** The child listed immediately before the first occurrence of `x`. */
  function PrecedingSibling(children: seq<nat>, x: nat): (r: nat)
    requires x in children && FirstIndex(children, x) > 0
    ensures r in children
  {
    children[FirstIndex(children, x) - 1]
  }

  /** The preceding sibling is another child of the same parent, listed earlier. */
  lemma PrecedingSiblingIsEarlierSibling(children: seq<nat>, x: nat)
    requires x in children && FirstIndex(children, x) > 0
    ensures PrecedingSibling(children, x) in children
    ensures PrecedingSibling(children, x) != x
    ensures FirstIndex(children, PrecedingSibling(children, x)) < FirstIndex(children, x)
  {
    var k := FirstIndex(children, x);
    var y := children[k - 1];
    assert y in children[..k] by { assert children[..k][k - 1] == y; }
    FirstIndexInPrefix(children, k, y);
  }

  /** `IndentCommand.NewParentNode`: walk the parent's children and remember the last one
      seen before the selected child. */
  method NewParentNode(children: seq<nat>, child: nat) returns (r: Option<nat>)
    ensures child in children ==>
      r == if FirstIndex(children, child) == 0 then None else Some(PrecedingSibling(children, child))
    ensures child !in children ==> r == if |children| == 0 then None else Some(children[|children| - 1])
  {
    r := None;
    var i := 0;
    while i < |children|
      invariant 0 <= i <= |children|
      invariant child !in children[..i]
      invariant r == if i == 0 then None else Some(children[i - 1])
    {
      if children[i] == child {
        FirstIndexUnique(children, child, i);
        return;
      }
      assert children[..i + 1] == children[..i] + [children[i]];
      r := Some(children[i]);
      i := i + 1;
    }
    assert children[..i] == children;
  }

  // ---------------------------------------------------------------------------------------
  // Command guards (`UpdateCanExecute`)

  /** The `CanExecute` flags of the tree's twelve commands. */
  datatype Flags = Flags(refresh: bool, select: bool, add: bool, cut: bool, copy: bool, paste: bool,
                         delete: bool, save: bool, undo: bool, indent: bool, outdent: bool, searchClosed: bool)

  /** Refresh, Select and SearchClosed are enabled by their constructors; every other command
      starts disabled. */
  const InitialFlags: Flags := Flags(true, true, false, false, false, false, false, false, false, false, false, true)

  ghost predicate Located(nodes: seq<Node>, sel: Option<nat>) {
    WellFormed(nodes) && Within(nodes, sel)
  }

  /** Cut and Delete: the selection has a parent whose item may be updated. */
  predicate ParentUpdatable(nodes: seq<Node>, sel: Option<nat>)
    requires Located(nodes, sel)
  {
    sel.Some? && nodes[sel.value].parent.Some? && nodes[nodes[sel.value].parent.value].item.canUpdate
  }

  /** Outdent: the selection has a parent and a grandparent, and both items may be updated. */
  predicate OutdentGuard(nodes: seq<Node>, sel: Option<nat>)
    requires Located(nodes, sel)
  {
    && sel.Some? && nodes[sel.value].parent.Some?
    && var p := nodes[sel.value].parent.value;
    && nodes[p].parent.Some?
    && nodes[p].item.canUpdate && nodes[nodes[p].parent.value].item.canUpdate
  }

  /** The selection has a parent and is not that parent's first child. */
  ghost predicate HasPrecedingSibling(nodes: seq<Node>, sel: Option<nat>)
    requires Located(nodes, sel)
  {
    && sel.Some? && nodes[sel.value].parent.Some?
    && (ParentLinked(nodes, sel.value); nodes[nodes[sel.value].parent.value].children[0] != sel.value)
  }

  /** Indent's new parent: the sibling just before the selection. */
  function NewParentOf(nodes: seq<Node>, sel: Option<nat>): (n: nat)
    requires Located(nodes, sel) && HasPrecedingSibling(nodes, sel)
    ensures n < |nodes| && n != sel.value
    ensures n in nodes[nodes[sel.value].parent.value].children
  {
    var p := nodes[sel.value].parent.value;
    ParentLinked(nodes, sel.value);
    PrecedingSiblingIsEarlierSibling(nodes[p].children, sel.value);
    ChildLinked(nodes, p, PrecedingSibling(nodes[p].children, sel.value));
    PrecedingSibling(nodes[p].children, sel.value)
  }

  /** Indent: the selection has a parent, is not its first child, and both the parent and the
      sibling just before the selection may be updated. */
  ghost predicate IndentGuard(nodes: seq<Node>, sel: Option<nat>)
    requires Located(nodes, sel)
  {
    && HasPrecedingSibling(nodes, sel)
    && nodes[nodes[sel.value].parent.value].item.canUpdate
    && nodes[NewParentOf(nodes, sel)].item.canUpdate
  }

  /** Paste's guard as written: it asks about the selection's parent. */
  predicate PasteGuardAsWritten(nodes: seq<Node>, sel: Option<nat>, buffer: Option<Item>)
    requires Located(nodes, sel)
  {
    sel.Some? && nodes[sel.value].parent.Some? && buffer.Some? && nodes[nodes[sel.value].parent.value].item.canUpdate
  }

  /** Paste's guard as its Run needs it: a selection whose item may be updated, and a buffer. */
  predicate PasteGuard(nodes: seq<Node>, sel: Option<nat>, buffer: Option<Item>)
    requires Located(nodes, sel)
  {
    sel.Some? && buffer.Some? && nodes[sel.value].item.canUpdate
  }

  /** Add: a selection whose item may be updated (read from the tree that owns the command). */
  predicate AddGuard(nodes: seq<Node>, sel: Option<nat>)
    requires Located(nodes, sel)
  {
    sel.Some? && nodes[sel.value].item.canUpdate
  }

  /** `RefreshCommands`: the enable flags after every guard has been re-evaluated. */
  ghost function Refreshed(m: Flags, nodes: seq<Node>, sel: Option<nat>, buffer: Option<Item>,
                           transaction: Option<nat>): Flags
    requires Located(nodes, sel)
  {
    m.(copy := sel.Some?, cut := ParentUpdatable(nodes, sel), delete := ParentUpdatable(nodes, sel),
       paste := PasteGuard(nodes, sel, buffer), save := transaction.Some?, indent := IndentGuard(nodes, sel),
       outdent := OutdentGuard(nodes, sel), undo := transaction.Some?, add := AddGuard(nodes, sel))
  }

  /** What each recomputed flag means. Refresh, Select and SearchClosed keep their flags. */
  lemma RefreshedMeaning(m: Flags, nodes: seq<Node>, sel: Option<nat>, buffer: Option<Item>,
                         transaction: Option<nat>)
    requires Located(nodes, sel)
    ensures var r := Refreshed(m, nodes, sel, buffer, transaction);
      && (r.save <==> transaction.Some?) && (r.undo <==> transaction.Some?)
      && (r.copy <==> sel.Some?)
      && (r.cut <==> r.delete)
      && (r.cut <==> sel.Some? && nodes[sel.value].parent.Some? && nodes[nodes[sel.value].parent.value].item.canUpdate)
      && (r.indent <==> IndentGuard(nodes, sel))
      && (r.outdent <==> OutdentGuard(nodes, sel))
      && (r.paste <==> PasteGuard(nodes, sel, buffer))
      && (r.add <==> AddGuard(nodes, sel))
      && r.refresh == m.refresh && r.select == m.select && r.searchClosed == m.searchClosed
  {
  }

  /** Indent is possible exactly when the selection is not the first of its parent's children,
      and the new parent it computes is the sibling listed just before the selection. */
  lemma IndentTarget(nodes: seq<Node>, s: nat)
    requires WellFormed(nodes) && s < |nodes| && nodes[s].parent.Some?
    ensures var children := nodes[nodes[s].parent.value].children;
      && s in children
      && (HasPrecedingSibling(nodes, Some(s)) <==> FirstIndex(children, s) > 0)
      && (FirstIndex(children, s) > 0 ==>
            && NewParentOf(nodes, Some(s)) == PrecedingSibling(children, s)
            && FirstIndex(children, NewParentOf(nodes, Some(s))) < FirstIndex(children, s))
  {
    var children := nodes[nodes[s].parent.value].children;
    ParentLinked(nodes, s);
    if FirstIndex(children, s) > 0 {
      PrecedingSiblingIsEarlierSibling(children, s);
    }
  }

  /** Whatever an enabled edit updates may be updated: an enabled Cut or Delete updates the
      parent, Outdent the parent and grandparent, Indent the parent and the new parent, Paste
      the selection. */
  lemma EnabledEditsUpdateUpdatable(nodes: seq<Node>, sel: Option<nat>, buffer: Option<Item>, transaction: Option<nat>,
                                    m: Flags)
    requires Located(nodes, sel)
    ensures var r := Refreshed(m, nodes, sel, buffer, transaction);
      && (r.cut ==> nodes[nodes[sel.value].parent.value].item.canUpdate)
      && (r.outdent ==> var p := nodes[sel.value].parent.value;
                         nodes[p].item.canUpdate && nodes[nodes[p].parent.value].item.canUpdate)
      && (r.indent ==> nodes[nodes[sel.value].parent.value].item.canUpdate && nodes[NewParentOf(nodes, sel)].item.canUpdate)
      && (r.paste ==> nodes[sel.value].item.canUpdate)
      && (r.add ==> nodes[sel.value].item.canUpdate)
  {
  }

  // ---------------------------------------------------------------------------------------
  // Selection

  /** A node as the commands receive it: the ID of its tree and its place in that tree. */
  datatype NodeRef = NodeRef(tree: Guid, index: nat)

  /** A parameter of the Select command: a tree node, or some other control. */
  datatype Parameter = TreeNode(node: NodeRef) | OtherControl(id: Guid)

  /** The `Selected` setter given a node: only a node of this tree that is not already selected
      is taken. */
  function SelectStep(tree: Guid, sel: Option<nat>, r: NodeRef): Option<nat> {
    if r.tree == tree && Some(r.index) != sel then Some(r.index) else sel
  }

  /** The selection after Select's loop over its parameters. */
  function SelectFold(tree: Guid, sel: Option<nat>, ps: seq<Parameter>): Option<nat>
    decreases |ps|
  {
    if |ps| == 0 then sel
    else
      var prev := SelectFold(tree, sel, ps[..|ps| - 1]);
      match ps[|ps| - 1]
      case TreeNode(r) => SelectStep(tree, prev, r)
      case OtherControl(_) => prev
  }

  /** The "Selected" notifications Select's loop emits: one per parameter that changes it. */
  function SelectNotes(tree: Guid, sel: Option<nat>, ps: seq<Parameter>): seq<Event>
    decreases |ps|
  {
    if |ps| == 0 then []
    else
      var prev := SelectFold(tree, sel, ps[..|ps| - 1]);
      SelectNotes(tree, sel, ps[..|ps| - 1]) +
        match ps[|ps| - 1]
        case TreeNode(r) => ChangeNote(SelectStep(tree, prev, r) != prev, "Selected")
        case OtherControl(_) => []
  }

  /** The last parameter that is a node of this tree, if any. */
  function LastOwnNode(tree: Guid, ps: seq<Parameter>): Option<nat>
    decreases |ps|
  {
    if |ps| == 0 then None
    else if ps[|ps| - 1].TreeNode? && ps[|ps| - 1].node.tree == tree then Some(ps[|ps| - 1].node.index)
    else LastOwnNode(tree, ps[..|ps| - 1])
  }

  /** Select leaves the last of its parameters that belongs to this tree selected; with none,
      the selection is unchanged. */
  lemma {:induction false} SelectFoldIsLastOwn(tree: Guid, sel: Option<nat>, ps: seq<Parameter>)
    ensures SelectFold(tree, sel, ps) == if LastOwnNode(tree, ps).Some? then LastOwnNode(tree, ps) else sel
    decreases |ps|
  {
    if |ps| > 0 {
      SelectFoldIsLastOwn(tree, sel, ps[..|ps| - 1]);
    }
  }

  /** The notifications say "Selected" and nothing else, and there are at most as many as
      parameters. */
  lemma {:induction false} SelectNotesBounded(tree: Guid, sel: Option<nat>, ps: seq<Parameter>)
    ensures |SelectNotes(tree, sel, ps)| <= |ps|
    ensures forall e | e in SelectNotes(tree, sel, ps) :: e == Notified("Selected")
    decreases |ps|
  {
    if |ps| > 0 {
      SelectNotesBounded(tree, sel, ps[..|ps| - 1]);
    }
  }

  predicate OwnNodesWithin(tree: Guid, nodes: seq<Node>, ps: seq<Parameter>) {
    forall k | 0 <= k < |ps| && ps[k].TreeNode? && ps[k].node.tree == tree :: ps[k].node.index < |nodes|
  }

  // ---------------------------------------------------------------------------------------
  // Backend calls

  /** The backend work the tree asks for, in order. A transaction is named by the number of
      transactions begun before it. */
  datatype Call =
    | Begin(transaction: nat)
    | UpdateItem(inTransaction: Option<nat>, itemId: string)
    | DeleteRelationship(inTransaction: Option<nat>, relationshipId: string)
    | Commit(transaction: nat, keepOpen: bool)
    | RollBack(transaction: nat)
    | RefreshNode(node: nat)
    | RefreshChildren(node: nat)

  /** The tree accepts only an item (or null) as its binding. */
  predicate AcceptsItem(candidate: Option<Obj>) {
    candidate.None? || candidate.value.ItemObj?
  }

  /** The node table, the cache and the root, as `AfterBindingChanged` leaves them. */
  datatype Rooting = Rooting(nodes: seq<Node>, cache: map<string, nat>, root: Option<nat>)

  /** `AfterBindingChanged` for the binding `b`: the node cached under the bound item's ID
      becomes the root and shows the item; with none cached, a new root node is appended and
      cached; unbound, there is no root. */
  function Rooted(nodes: seq<Node>, cache: map<string, nat>, b: Option<Obj>): (r: Rooting)
    requires CacheValid(cache, nodes) && AcceptsItem(b)
    ensures r.root.None? <==> b.None?
    ensures b.None? ==> r.nodes == nodes && r.cache == cache
    ensures b.Some? ==>
      var item := b.value.item;
      && r.root.value < |r.nodes| && r.nodes[r.root.value].item == item
      && item.id in r.cache && r.cache[item.id] == r.root.value
      && (item.id in cache ==> r.root == Some(cache[item.id]) && r.cache == cache && |r.nodes| == |nodes|)
      && (item.id !in cache ==> r.root == Some(|nodes|) && r.nodes[..|nodes|] == nodes)
  {
    if b.None? then Rooting(nodes, cache, None)
    else
      var item := b.value.item;
      if item.id in cache then
        var k := cache[item.id];
        Rooting(nodes[k := nodes[k].(item := item)], cache, Some(k))
      else
        Rooting(nodes + [Node(None, [], item, None)], cache[item.id := |nodes|], Some(|nodes|))
  }

  // ---------------------------------------------------------------------------------------
  // Defects of the code as written

  /** What one assignment to the tree's `Binding` does as written: the base check accepts
      anything, the value is assigned, and only then does `AfterBindingChanged` throw for a
      value that is not an item, skipping the notification. */
  datatype BindStep = BindStep(binding: Option<Obj>, outcome: Outcome, events: seq<Event>)

  function BindAsWritten(current: Option<Obj>, candidate: Option<Obj>): (r: BindStep)
    ensures r.binding == BoundAfter(current, candidate, true)
    ensures r.outcome.Fail? <==> SetterActs(current, candidate) && !AcceptsItem(candidate)
    ensures r.outcome.Ok? ==> r.events == BindingCycle(current, candidate, true, [], [])
  {
    if !SetterActs(current, candidate) then BindStep(current, Ok, [])
    else if !AcceptsItem(candidate) then
      BindStep(candidate, Fail(ArgumentError("Binding must be of type Model.Item")),
               [Checked(candidate), BeforeBinding(current), AfterBinding(candidate)])
    else BindStep(candidate, Ok, BindingCycle(current, candidate, true, [], []))
  }

  /** Binding an unbound tree to a non-item throws, yet leaves the non-item bound. */
  lemma BindAsWrittenKeepsRejectedValue()
    ensures var r := BindAsWritten(None, Some(OtherObj("x")));
      r.outcome.Fail? && r.binding == Some(OtherObj("x")) && !AcceptsItem(r.binding)
  {
  }

  /** Paste as written is enabled for a selection whose item may not be updated, which its Run
      then updates; and it is disabled at the root, where Run would work. */
  lemma PasteGuardAsWrittenMismatch()
    ensures var nodes := [Node(None, [1], Item("p", true), None), Node(Some(0), [], Item("c", false), Some(Relationship("r")))];
      && Located(nodes, Some(1)) && Located(nodes, Some(0))
      && PasteGuardAsWritten(nodes, Some(1), Some(Item("b", true))) && !nodes[1].item.canUpdate
      && !PasteGuardAsWritten(nodes, Some(0), Some(Item("b", true))) && nodes[0].item.canUpdate
  {
    var nodes := [Node(None, [1], Item("p", true), None), Node(Some(0), [], Item("c", false), Some(Relationship("r")))];
    forall i ensures ListedByParent(nodes, i) {
      if i == 1 { assert nodes[0].children[0] == 1; }
    }
    forall i, c: nat ensures ChildListed(nodes, i, c) {
      if i == 0 && c in nodes[0].children { assert nodes[0].children == [1]; }
    }
  }

  /** `AddCommand.RelationshipTree` as written returns itself cast, so every read nests one
      more read: whatever stack depth is available, it ends in a stack overflow and never
      yields the tree. */
  function AddOwnerAsWritten(stack: nat): (r: Result<Guid>)
    ensures r == Failure(StackOverflow)
    decreases stack
  {
    if stack == 0 then Failure(StackOverflow) else AddOwnerAsWritten(stack - 1)
  }

  // ---------------------------------------------------------------------------------------
  // The tree

  class RelationshipTree {
    const control: Control
    var nodes: seq<Node>
    /** The root node (`Tree.Node`). */
    var root: Option<nat>
    var selected: Option<nat>
    var showSearch: bool
    var cache: map<string, nat>
    var buffer: Option<Item>
    var transaction: Option<nat>
    /** How many transactions have been begun. */
    var begun: nat
    var calls: seq<Call>
    var canExecute: Flags

    /** The node table is well formed and the root and the cache point into it. */
    ghost predicate TableValid()
      reads this`nodes, this`root, this`cache
    {
      && WellFormed(nodes)
      && Within(nodes, root)
      && CacheValid(cache, nodes)
    }

    ghost predicate Valid()
      reads this, control
    {
      && TableValid()
      && Within(nodes, selected)
      && (transaction.Some? ==> transaction.value < begun)
      && AcceptsItem(control.binding)
    }

    constructor (id: Guid)
      ensures Valid()
      ensures fresh(control) && control.id == id && control.binding == None && control.log == []
      ensures nodes == [] && root == None && selected == None && !showSearch
      ensures cache == map[] && buffer == None && transaction == None && begun == 0 && calls == []
      ensures canExecute == InitialFlags
    {
      control := new Control(id, [], []);
      nodes := [];
      root := None;
      selected := None;
      showSearch := false;
      cache := map[];
      buffer := None;
      transaction := None;
      begun := 0;
      calls := [];
      canExecute := InitialFlags;
    }

    // ----- selection and the search flag

    /** The `Selected` setter: a node of another tree, or the node already selected, changes
        nothing; null clears the selection. "Selected" is notified exactly on a change. */
    method SetSelected(r: Option<NodeRef>)
      requires Valid()
      requires r.Some? && r.value.tree == control.id ==> r.value.index < |nodes|
      modifies this`selected, control`log
      ensures Valid()
      ensures r.None? ==> selected == None
      ensures r.Some? ==> selected == SelectStep(control.id, old(selected), r.value)
      ensures r.Some? && r.value.tree != control.id ==> selected == old(selected)
      ensures control.log == old(control.log) + ChangeNote(selected != old(selected), "Selected")
    {
      if r.Some? {
        if r.value.tree == control.id && Some(r.value.index) != selected {
          selected := Some(r.value.index);
          control.log := control.log + [Notified("Selected")];
        }
      } else {
        if selected.Some? {
          selected := None;
          control.log := control.log + [Notified("Selected")];
        }
      }
    }

    method SetShowSearch(value: bool)
      modifies this`showSearch, control`log
      ensures showSearch == value
      ensures control.log == old(control.log) + ChangeNote(old(showSearch) != value, "ShowSearch")
    {
      if showSearch != value {
        showSearch := value;
        control.log := control.log + [Notified("ShowSearch")];
      }
    }

    // ----- the node cache

    /** `GetNodeFromCache`: the node filed under `id`, or null. */
    function GetNodeFromCache(id: string): (r: Option<nat>)
      reads this, control
      requires Valid()
      ensures r.None? <==> id !in cache
      ensures r.Some? ==> r.value < |nodes| && CacheKey(nodes[r.value]) == id
      ensures id in cache ==> r == Some(cache[id])
    {
      if id in cache then Some(cache[id]) else None
    }

    /** `AddNodeToCache`: file a node under its key, replacing whatever was filed there. */
    method AddNodeToCache(n: nat)
      requires Valid() && n < |nodes|
      modifies this`cache
      ensures Valid()
      ensures cache == old(cache)[CacheKey(nodes[n]) := n]
      ensures GetNodeFromCache(CacheKey(nodes[n])) == Some(n)
    {
      cache := cache[CacheKey(nodes[n]) := n];
    }

    /** Stand-in for the nodes' own lazy loading of their children: append a child node under
        `parent` and cache it. */
    method AddChildNode(parent: nat, item: Item, rel: Relationship) returns (n: nat)
      requires Valid() && parent < |nodes|
      modifies this`nodes, this`cache
      ensures Valid()
      ensures n == |old(nodes)|
      ensures nodes == old(nodes)[parent := old(nodes)[parent].(children := old(nodes)[parent].children + [n])]
                       + [Node(Some(parent), [], item, Some(rel))]
      ensures cache == old(cache)[rel.id := n]
    {
      n := |nodes|;
      var updated := nodes[parent].(children := nodes[parent].children + [n]);
      ghost var before := nodes;
      nodes := nodes[parent := updated] + [Node(Some(parent), [], item, Some(rel))];
      assert forall i | 0 <= i < n ::
        nodes[i].parent == before[i].parent && nodes[i].relationship == before[i].relationship && nodes[i].item == before[i].item;
      forall i ensures ListedByParent(nodes, i) {
        if 0 <= i < n && nodes[i].parent.Some? {
          ParentLinked(before, i);
        }
      }
      forall i, c: nat ensures ChildListed(nodes, i, c) {
        if 0 <= i < |nodes| && c in nodes[i].children {
          if i == n {
          } else if i != parent {
            assert nodes[i].children == before[i].children;
            ChildLinked(before, i, c);
          } else if c != n {
            assert c in before[i].children;
            ChildLinked(before, i, c);
          }
        }
      }
      assert CacheValid(cache, nodes) by {
        forall k | k in cache
          ensures cache[k] < |nodes| && CacheKey(nodes[cache[k]]) == k
        {
          assert CacheKey(nodes[cache[k]]) == CacheKey(before[cache[k]]);
        }
      }
      AddNodeToCache(n);
    }

    // ----- the lazy transaction

    /** The transaction the next read of `Transaction` yields. */
    function NextTransaction(): Option<nat>
      reads this, control
    {
      if transaction.None? && control.binding.Some? then Some(begun) else transaction
    }

    /** The `BeginTransaction` call the next read of `Transaction` makes, if any. */
    function OpeningCalls(): seq<Call>
      reads this, control
    {
      if transaction.None? && control.binding.Some? then [Begin(begun)] else []
    }

    /** `Transaction`: begun on first read while bound; then the same one until Save or Undo
        clears it; null while unbound. */
    method Transaction() returns (t: Option<nat>)
      requires Valid()
      modifies this`transaction, this`begun, this`calls
      ensures Valid()
      ensures t == transaction == old(NextTransaction())
      ensures t.Some? <==> old(transaction).Some? || control.binding.Some?
      ensures old(transaction).Some? ==> t == old(transaction)
      ensures calls == old(calls) + old(OpeningCalls())
      ensures begun == old(begun) + |old(OpeningCalls())|
      ensures NextTransaction() == t && OpeningCalls() == []
    {
      if transaction.None? {
        if control.binding.Some? {
          transaction := Some(begun);
          calls := calls + [Begin(begun)];
          begun := begun + 1;
        }
      }
      t := transaction;
    }

    /** Stage `Item.Update` of a node's item in the tree's transaction. */
    method StageUpdate(n: nat)
      requires Valid() && n < |nodes|
      modifies this`transaction, this`begun, this`calls
      ensures Valid()
      ensures transaction == old(NextTransaction()) && OpeningCalls() == []
      ensures begun == old(begun) + |old(OpeningCalls())|
      ensures calls == old(calls) + old(OpeningCalls()) + [UpdateItem(transaction, nodes[n].item.id)]
    {
      var t := Transaction();
      calls := calls + [UpdateItem(t, nodes[n].item.id)];
    }

    /** Stage `Relationship.Delete` of the relationship that links a node to its parent. */
    method StageDelete(n: nat)
      requires Valid() && n < |nodes| && nodes[n].relationship.Some?
      modifies this`transaction, this`begun, this`calls
      ensures Valid()
      ensures transaction == old(NextTransaction()) && OpeningCalls() == []
      ensures begun == old(begun) + |old(OpeningCalls())|
      ensures calls == old(calls) + old(OpeningCalls()) + [DeleteRelationship(transaction, nodes[n].relationship.value.id)]
    {
      var t := Transaction();
      calls := calls + [DeleteRelationship(t, nodes[n].relationship.value.id)];
    }

    /** The first two steps of Cut, Delete, Indent and Outdent: stage the update of the
        parent's item and the delete of the relationship linking node `s` to it. */
    method StageUnlink(s: nat)
      requires Valid() && s < |nodes| && nodes[s].parent.Some?
      modifies this`transaction, this`begun, this`calls
      ensures Valid()
      ensures transaction == old(NextTransaction()) && OpeningCalls() == []
      ensures begun == old(begun) + |old(OpeningCalls())|
      ensures calls == old(calls) + old(OpeningCalls()) + [UpdateItem(transaction, nodes[nodes[s].parent.value].item.id),
                                                           DeleteRelationship(transaction, nodes[s].relationship.value.id)]
    {
      StageUpdate(nodes[s].parent.value);
      StageDelete(s);
    }

    // ----- command flags

    /** `RefreshCommands`: re-evaluate the guards of Copy, Cut, Delete, Paste, Save, Indent,
        Outdent, Undo and Add against the current state. */
    method RefreshCommands()
      requires Valid()
      modifies this`canExecute
      ensures Valid()
      ensures canExecute == Refreshed(old(canExecute), nodes, selected, buffer, transaction)
    {
      var indent := IndentCanExecute();
      canExecute := canExecute.(copy := selected.Some?, cut := ParentUpdatable(nodes, selected),
                                delete := ParentUpdatable(nodes, selected), paste := PasteGuard(nodes, selected, buffer),
                                save := transaction.Some?, indent := indent, outdent := OutdentGuard(nodes, selected),
                                undo := transaction.Some?, add := AddGuard(nodes, selected));
    }

    /** `IndentCommand.UpdateCanExecute`, which finds the new parent with `NewParentNode`. */
    method IndentCanExecute() returns (b: bool)
      requires Valid()
      ensures b == IndentGuard(nodes, selected)
    {
      b := false;
      if selected.Some? && nodes[selected.value].parent.Some? {
        var s := selected.value;
        var p := nodes[s].parent.value;
        ParentLinked(nodes, s);
        if nodes[p].children[0] != s {
          var newParent := NewParentNode(nodes[p].children, s);
          ChildLinked(nodes, p, newParent.value);
          b := nodes[p].item.canUpdate && nodes[newParent.value].item.canUpdate;
        }
      }
    }

    // ----- binding

    /** The Binding setter with the tree's hooks, the type check made in `CheckBinding` so that
        a non-item is refused before anything is assigned. */
    method SetBinding(candidate: Option<Obj>) returns (o: Outcome)
      requires Valid()
      modifies this`nodes, this`root, this`cache, control`binding, control`log
      ensures Valid()
      ensures var acts := SetterActs(old(control.binding), candidate);
        && (o.Fail? <==> acts && !AcceptsItem(candidate))
        && control.binding == BoundAfter(old(control.binding), candidate, AcceptsItem(candidate))
        && control.log == old(control.log) + BindingCycle(old(control.binding), candidate, AcceptsItem(candidate), [], [])
        && (!acts || o.Fail? ==> nodes == old(nodes) && root == old(root) && cache == old(cache))
        && (acts && o.Ok? ==> Rooting(nodes, cache, root) == Rooted(old(nodes), old(cache), candidate))
    {
      o := Ok;
      if control.binding.None? {
        if candidate.Some? {
          o := RunBindingCycle(candidate);
        }
      } else {
        if !(candidate.Some? && control.binding.value == candidate.value) {
          o := RunBindingCycle(candidate);
        }
      }
    }

    method RunBindingCycle(candidate: Option<Obj>) returns (o: Outcome)
      requires Valid()
      modifies this`nodes, this`root, this`cache, control`binding, control`log
      ensures Valid()
      ensures o.Fail? <==> !AcceptsItem(candidate)
      ensures o.Fail? ==> control.binding == old(control.binding) && control.log == old(control.log) + [Checked(candidate)]
      ensures o.Fail? ==> nodes == old(nodes) && root == old(root) && cache == old(cache)
      ensures o.Ok? ==> control.binding == candidate
      ensures o.Ok? ==>
        control.log == old(control.log) + [Checked(candidate), BeforeBinding(old(control.binding)), AfterBinding(candidate), Notified("Binding")]
      ensures o.Ok? ==> Rooting(nodes, cache, root) == Rooted(old(nodes), old(cache), candidate)
    {
      control.log := control.log + [Checked(candidate)];
      if !AcceptsItem(candidate) {
        return Fail(ArgumentError("Binding must be of type Model.Item"));
      }
      control.log := control.log + [BeforeBinding(control.binding)];
      control.binding := candidate;
      control.log := control.log + [AfterBinding(control.binding)];
      AfterBindingChanged();
      control.log := control.log + [Notified("Binding")];
      o := Ok;
    }

    /** `AfterBindingChanged`: the root is the cached node for the bound item, rebound to it,
        or a new root node, which is cached; unbound, there is no root. */
    method AfterBindingChanged()
      requires Valid()
      modifies this`nodes, this`root, this`cache
      ensures Valid()
      ensures Rooting(nodes, cache, root) == Rooted(old(nodes), old(cache), control.binding)
    {
      if control.binding.Some? {
        var item := control.binding.value.item;
        root := GetNodeFromCache(item.id);
        if root.None? {
          AddRoot(item);
        } else {
          RebindRoot(root.value, item);
        }
      } else {
        root := None;
      }
    }

    /** A new root node showing `item`, appended to the table and cached under the item's ID. */
    method AddRoot(item: Item)
      requires Valid() && item.id !in cache
      modifies this`nodes, this`root, this`cache
      ensures Valid()
      ensures root == Some(|old(nodes)|) && cache == old(cache)[item.id := |old(nodes)|]
      ensures nodes == old(nodes) + [Node(None, [], item, None)]
    {
      ghost var before := nodes;
      nodes := nodes + [Node(None, [], item, None)];
      assert forall i | 0 <= i < |before| :: nodes[i] == before[i];
      forall i ensures ListedByParent(nodes, i) {
        if 0 <= i < |before| && nodes[i].parent.Some? {
          ParentLinked(before, i);
        }
      }
      forall i, c: nat ensures ChildListed(nodes, i, c) {
        if 0 <= i < |before| && c in nodes[i].children {
          ChildLinked(before, i, c);
        }
      }
      root := Some(|nodes| - 1);
      AddNodeToCache(|nodes| - 1);
    }

    /** The cached node `r` for the bound item becomes the root and is rebound to `item`. */
    method RebindRoot(r: nat, item: Item)
      requires Valid() && r < |nodes| && CacheKey(nodes[r]) == item.id
      modifies this`nodes, this`root
      ensures Valid()
      ensures root == Some(r) && nodes == old(nodes)[r := old(nodes)[r].(item := item)]
    {
      ghost var before := nodes;
      nodes := nodes[r := nodes[r].(item := item)];
      assert forall i | 0 <= i < |nodes| ::
        nodes[i].parent == before[i].parent && nodes[i].children == before[i].children && CacheKey(nodes[i]) == CacheKey(before[i]);
      forall i ensures ListedByParent(nodes, i) {
        if 0 <= i < |nodes| && nodes[i].parent.Some? {
          ParentLinked(before, i);
        }
      }
      forall i, c: nat ensures ChildListed(nodes, i, c) {
        if 0 <= i < |nodes| && c in nodes[i].children {
          ChildLinked(before, i, c);
        }
      }
      root := Some(r);
    }

    // ----- commands

    /** The tree's `RefreshCommand.Run`: refresh the root node, then enable Refresh. */
    method RunRefresh()
      requires Valid()
      modifies this`calls, this`canExecute
      ensures Valid()
      ensures calls == old(calls) + if root.Some? then [RefreshNode(root.value)] else []
      ensures canExecute == old(canExecute).(refresh := true)
    {
      if root.Some? {
        calls := calls + [RefreshNode(root.value)];
      }
      canExecute := canExecute.(refresh := true);
    }

    /** `SelectCommand.Run`: select each node parameter in turn, then refresh the flags; no
        parameter list at all does nothing. */
    method RunSelect(parameters: Option<seq<Parameter>>)
      requires Valid()
      requires parameters.Some? ==> OwnNodesWithin(control.id, nodes, parameters.value)
      modifies this`selected, this`canExecute, control`log
      ensures Valid()
      ensures parameters.None? ==> selected == old(selected) && canExecute == old(canExecute) && control.log == old(control.log)
      ensures parameters.Some? ==>
        && selected == SelectFold(control.id, old(selected), parameters.value)
        && control.log == old(control.log) + SelectNotes(control.id, old(selected), parameters.value)
        && canExecute == Refreshed(old(canExecute), nodes, selected, buffer, transaction)
    {
      if parameters.Some? {
        var ps := parameters.value;
        var i := 0;
        while i < |ps|
          invariant 0 <= i <= |ps|
          invariant Valid()
          invariant canExecute == old(canExecute)
          invariant selected == SelectFold(control.id, old(selected), ps[..i])
          invariant control.log == old(control.log) + SelectNotes(control.id, old(selected), ps[..i])
        {
          assert ps[..i + 1][..i] == ps[..i];
          if ps[i].TreeNode? {
            SetSelected(Some(ps[i].node));
          }
          i := i + 1;
        }
        assert ps[..i] == ps;
        RefreshCommands();
      }
    }

    /** `AddCommand.Run`, reading the owning tree: show the search grid exactly when a node is
        selected. */
    method RunAdd()
      modifies this`showSearch, control`log
      ensures showSearch == selected.Some?
      ensures control.log == old(control.log) + ChangeNote(old(showSearch) != selected.Some?, "ShowSearch")
    {
      SetShowSearch(selected.Some?);
    }

    /** `CutCommand.Run`: buffer the selected item, stage the parent's update and the delete
        of the selection's relationship, refresh the parent, select it, refresh its children. */
    method RunCut()
      requires Valid()
      modifies this`buffer, this`selected, this`transaction, this`begun, this`calls, this`canExecute, control`log
      ensures Valid()
      ensures var s := old(selected);
        if s.Some? && nodes[s.value].parent.Some? then
          var p := nodes[s.value].parent.value;
          var t := old(NextTransaction());
          && buffer == Some(nodes[s.value].item)
          && transaction == t && begun == old(begun) + |old(OpeningCalls())|
          && calls == old(calls) + old(OpeningCalls()) + [UpdateItem(t, nodes[p].item.id),
               DeleteRelationship(t, nodes[s.value].relationship.value.id), RefreshNode(p), RefreshChildren(p)]
          && selected == Some(p)
          && control.log == old(control.log) + [Notified("Selected")]
          && canExecute == Refreshed(old(canExecute), nodes, selected, buffer, transaction)
        else
          && buffer == old(buffer) && selected == old(selected) && transaction == old(transaction)
          && begun == old(begun) && calls == old(calls) && canExecute == old(canExecute)
          && control.log == old(control.log)
    {
      if selected.Some? && nodes[selected.value].parent.Some? {
        var s := selected.value;
        var p := nodes[s].parent.value;
        buffer := Some(nodes[s].item);
        StageUnlink(s);
        SelectAndRefresh(p, [RefreshNode(p), RefreshChildren(p)]);
      }
    }

    /** The common end of the editing commands: ask for the node refreshes `refreshes`, select
        node `n` and recompute the command flags. */
    method SelectAndRefresh(n: nat, refreshes: seq<Call>)
      requires Valid() && n < |nodes|
      modifies this`selected, this`calls, this`canExecute, control`log
      ensures Valid()
      ensures selected == Some(n)
      ensures calls == old(calls) + refreshes
      ensures control.log == old(control.log) + ChangeNote(old(selected) != Some(n), "Selected")
      ensures canExecute == Refreshed(old(canExecute), nodes, selected, buffer, transaction)
    {
      calls := calls + refreshes;
      SetSelected(Some(NodeRef(control.id, n)));
      RefreshCommands();
    }

    /** The staging Outdent and Indent share when they move node `s` under node `n`: the update
        of the old parent's item and the delete of `s`'s relationship, a refresh of the old
        parent, and the update of `n`'s item. */
    method StageMove(s: nat, n: nat)
      requires Valid() && s < |nodes| && nodes[s].parent.Some? && n < |nodes|
      modifies this`transaction, this`begun, this`calls
      ensures Valid()
      ensures transaction == old(NextTransaction()) && OpeningCalls() == []
      ensures begun == old(begun) + |old(OpeningCalls())|
      ensures var p := nodes[s].parent.value;
        calls == old(calls) + old(OpeningCalls()) + [UpdateItem(transaction, nodes[p].item.id),
          DeleteRelationship(transaction, nodes[s].relationship.value.id), RefreshNode(p),
          UpdateItem(transaction, nodes[n].item.id)]
    {
      StageUnlink(s);
      calls := calls + [RefreshNode(nodes[s].parent.value)];
      StageUpdate(n);
    }

    /** `CopyCommand.Run`: buffer the selected item; nothing is staged. */
    method RunCopy()
      requires Valid()
      modifies this`buffer, this`canExecute
      ensures Valid()
      ensures selected.Some? ==>
        buffer == Some(nodes[selected.value].item) && canExecute == Refreshed(old(canExecute), nodes, selected, buffer, transaction)
      ensures selected.None? ==> buffer == old(buffer) && canExecute == old(canExecute)
    {
      if selected.Some? {
        buffer := Some(nodes[selected.value].item);
        RefreshCommands();
      }
    }

    /** `PasteCommand.Run`: stage an update of the selected item and refresh it. (The creation
        of the pasted relationship is not made by this code.) */
    method RunPaste()
      requires Valid()
      modifies this`transaction, this`begun, this`calls, this`canExecute
      ensures Valid()
      ensures if selected.Some? && buffer.Some? then
          var t := old(NextTransaction());
          && transaction == t && begun == old(begun) + |old(OpeningCalls())|
          && calls == old(calls) + old(OpeningCalls()) + [UpdateItem(t, nodes[selected.value].item.id), RefreshNode(selected.value)]
          && canExecute == Refreshed(old(canExecute), nodes, selected, buffer, transaction)
        else
          transaction == old(transaction) && begun == old(begun) && calls == old(calls) && canExecute == old(canExecute)
    {
      if selected.Some? && buffer.Some? {
        StageUpdate(selected.value);
        calls := calls + [RefreshNode(selected.value)];
        RefreshCommands();
      }
    }

    /** `DeleteCommand.Run`: stage the parent's update and the delete of the selection's
        relationship, select the parent, refresh its children. */
    method RunDelete()
      requires Valid()
      modifies this`selected, this`transaction, this`begun, this`calls, this`canExecute, control`log
      ensures Valid()
      ensures var s := old(selected);
        if s.Some? && nodes[s.value].parent.Some? then
          var p := nodes[s.value].parent.value;
          var t := old(NextTransaction());
          && transaction == t && begun == old(begun) + |old(OpeningCalls())|
          && calls == old(calls) + old(OpeningCalls()) + [UpdateItem(t, nodes[p].item.id),
               DeleteRelationship(t, nodes[s.value].relationship.value.id), RefreshChildren(p)]
          && selected == Some(p)
          && control.log == old(control.log) + [Notified("Selected")]
          && canExecute == Refreshed(old(canExecute), nodes, selected, buffer, transaction)
        else
          && selected == old(selected) && transaction == old(transaction)
          && begun == old(begun) && calls == old(calls) && canExecute == old(canExecute)
          && control.log == old(control.log)
    {
      if selected.Some? && nodes[selected.value].parent.Some? {
        var s := selected.value;
        var p := nodes[s].parent.value;
        StageUnlink(s);
        SelectAndRefresh(p, [RefreshChildren(p)]);
      }
    }

    /** `SaveCommand.Run`: commit the open transaction without keeping it, and forget it. */
    method RunSave()
      requires Valid()
      modifies this`transaction, this`calls, this`canExecute
      ensures Valid()
      ensures old(transaction).Some? ==>
        && transaction == None
        && calls == old(calls) + [Commit(old(transaction).value, false)]
        && canExecute == Refreshed(old(canExecute), nodes, selected, buffer, None)
      ensures old(transaction).None? ==> transaction == None && calls == old(calls) && canExecute == old(canExecute)
    {
      if transaction.Some? {
        calls := calls + [Commit(transaction.value, false)];
        transaction := None;
        RefreshCommands();
      }
    }

    /** `UndoCommand.Run`: roll the open transaction back, forget it, refresh the tree. */
    method RunUndo()
      requires Valid()
      modifies this`transaction, this`calls, this`canExecute
      ensures Valid()
      ensures old(transaction).Some? ==>
        && transaction == None
        && calls == old(calls) + [RollBack(old(transaction).value)] + (if root.Some? then [RefreshNode(root.value)] else [])
        && canExecute == Refreshed(old(canExecute).(refresh := true), nodes, selected, buffer, None)
      ensures old(transaction).None? ==> transaction == None && calls == old(calls) && canExecute == old(canExecute)
    {
      if transaction.Some? {
        calls := calls + [RollBack(transaction.value)];
        transaction := None;
        RunRefresh();
        RefreshCommands();
      }
    }

    /** `OutdentCommand.Run`: move the selection up a level: stage the parent's update, the
        delete of the selection's relationship, and the grandparent's update, refreshing each,
        and select the grandparent. */
    method RunOutdent()
      requires Valid()
      modifies this`selected, this`transaction, this`begun, this`calls, this`canExecute, control`log
      ensures Valid()
      ensures var s := old(selected);
        if s.Some? && nodes[s.value].parent.Some? && nodes[nodes[s.value].parent.value].parent.Some? then
          var p := nodes[s.value].parent.value;
          var g := nodes[p].parent.value;
          var t := old(NextTransaction());
          && transaction == t && begun == old(begun) + |old(OpeningCalls())|
          && calls == old(calls) + old(OpeningCalls()) + [UpdateItem(t, nodes[p].item.id),
               DeleteRelationship(t, nodes[s.value].relationship.value.id), RefreshNode(p),
               UpdateItem(t, nodes[g].item.id), RefreshNode(g)]
          && selected == Some(g)
          && control.log == old(control.log) + [Notified("Selected")]
          && canExecute == Refreshed(old(canExecute), nodes, selected, buffer, transaction)
        else
          && selected == old(selected) && transaction == old(transaction)
          && begun == old(begun) && calls == old(calls) && canExecute == old(canExecute)
          && control.log == old(control.log)
    {
      if selected.Some? && nodes[selected.value].parent.Some? && nodes[nodes[selected.value].parent.value].parent.Some? {
        var s := selected.value;
        var p := nodes[s].parent.value;
        var g := nodes[p].parent.value;
        StageMove(s, g);
        SelectAndRefresh(g, [RefreshNode(g)]);
      }
    }

    /** `IndentCommand.Run`: move the selection under the sibling before it: stage the parent's
        update, the delete of the selection's relationship, and the new parent's update,
        refreshing each, and select the new parent. */
    method RunIndent()
      requires Valid()
      modifies this`selected, this`transaction, this`begun, this`calls, this`canExecute, control`log
      ensures Valid()
      ensures var s := old(selected);
        if HasPrecedingSibling(nodes, s) then
          var p := nodes[s.value].parent.value;
          var n := NewParentOf(nodes, s);
          var t := old(NextTransaction());
          && transaction == t && begun == old(begun) + |old(OpeningCalls())|
          && calls == old(calls) + old(OpeningCalls()) + [UpdateItem(t, nodes[p].item.id),
               DeleteRelationship(t, nodes[s.value].relationship.value.id), RefreshNode(p),
               UpdateItem(t, nodes[n].item.id), RefreshNode(n)]
          && selected == Some(n)
          && control.log == old(control.log) + [Notified("Selected")]
          && canExecute == Refreshed(old(canExecute), nodes, selected, buffer, transaction)
        else
          && selected == old(selected) && transaction == old(transaction)
          && begun == old(begun) && calls == old(calls) && canExecute == old(canExecute)
          && control.log == old(control.log)
    {
      if selected.Some? && nodes[selected.value].parent.Some? && (ParentLinked(nodes, selected.value);
          nodes[nodes[selected.value].parent.value].children[0] != selected.value) {
        var s := selected.value;
        var p := nodes[s].parent.value;
        var newParent := NewParentNode(nodes[p].children, s);
        IndentTarget(nodes, s);
        var n := newParent.value;
        StageMove(s, n);
        SelectAndRefresh(n, [RefreshNode(n)]);
      }
    }

    /** `SearchClosedCommand.Run`: hide the search grid. */
    method RunSearchClosed()
      modifies this`showSearch, control`log
      ensures !showSearch
      ensures control.log == old(control.log) + ChangeNote(old(showSearch), "ShowSearch")
    {
      SetShowSearch(false);
    }

    /** `Selected_ListChanged`: with a node selected, stage an update of the selected item and
        refresh it; in every case hide the search grid. (Its second test, that the search
        grid's selection list is not null, is taken to hold: the constructor subscribes to
        that list's changes, and the search grid is assumed to keep that list.) */
    method SearchSelectionChanged()
      requires Valid()
      modifies this`showSearch, this`transaction, this`begun, this`calls, this`canExecute, control`log
      ensures Valid()
      ensures !showSearch
      ensures control.log == old(control.log) + ChangeNote(old(showSearch), "ShowSearch")
      ensures if selected.Some? then
          var t := old(NextTransaction());
          && transaction == t && begun == old(begun) + |old(OpeningCalls())|
          && calls == old(calls) + old(OpeningCalls()) + [UpdateItem(t, nodes[selected.value].item.id), RefreshNode(selected.value)]
          && canExecute == Refreshed(old(canExecute), nodes, selected, buffer, transaction)
        else
          transaction == old(transaction) && begun == old(begun) && calls == old(calls) && canExecute == old(canExecute)
    {
      if selected.Some? {
        StageUpdate(selected.value);
        calls := calls + [RefreshNode(selected.value)];
        RefreshCommands();
      }
      SetShowSearch(false);
    }
  }
}
